=== FILE: README.md ===
# NFS volume driver: mount lifecycle

A Dafny model of the mount lifecycle of the NFS driver in docker-volume-netshare
(`netshare/drivers/nfs.go`). Containers ask the driver to mount and unmount a
named volume. The driver resolves the name into a canonical name and inline
options. It then chooses the remote share to mount and keeps a per-name count of
users in a registry (`MountManager`). It mounts the share on the host only for a
volume that is not already mounted, and tears the mount down when the last user
leaves.

Files:

- `registry.dfy`, module `Registry`: the registry. A `Record` holds the host
  directory, the option map and the user count. The operations the driver calls
  are defined once as functions on the table (`Incremented`, `Decremented`,
  `Added`, `Created`, `WithOption`, `WithoutUnmanaged`). The class
  `MountManager` holds the table in a `map` field, and its methods apply those
  functions in place.
- `host.dfy`, module `Host`: the host as the driver sees it. It has the set of
  mounted paths (the mount table), the existing directories, the directories
  that hold entries, and the ordered trace of host operations the driver issued.
  Whether a fallible operation succeeds is an input (`Outcomes`).
- `nfs.dfy`, module `Nfs`: the driver.
  - The configuration is a `Driver` value built by `NewNFSDriver`.
  - `SelectSource` chooses the mount source. `PlanMount` and `CommandLine` build
    the mount command.
  - `MountStep` and `UnmountStep` say what one call does to the registry and the
    host, and what it returns.
  - The imperative methods `Mount` (with its parts `ChooseSource` and
    `MountOnHost`) and `Unmount` follow the code statement by statement, with
    two exceptions that together make up the corrected source choice (see
    Findings and the `Nfs.MountStep` line under "Left out"):
    - `ChooseSource` writes the driver defaults only after checking that the
      record exists (`HasMount`).
    - `MountOnHost` creates a new record (line 109) with `NewRecordOpts`: the
      inline options with the driver defaults on top. The code passes the inline
      options alone.

    The methods update the registry object in place and are proved to agree
    with `MountStep` and `UnmountStep`.
- `lifecycle.dfy`, module `Lifecycle`: the properties of single calls, and of N
  mounts of one volume followed by N unmounts.

Each `Mount` and `Unmount` call runs entirely under the driver's lock, so each
is modelled as one atomic step. The code behaves as follows, and the model
follows the code:

- A recorded volume with neither a stored share nor the create flag gets the
  driver's default share and create values written into its record, on every
  path, including the one that only reuses a live mount.
- With no inline share, no stored share, no create flag and no default share,
  the mount source is the empty string, not the volume name. The name is the
  source only when the create flag is set and no share is stored.
- A mount that finds the volume live returns the top-level mountpoint, even for a
  volume with a share and the create flag. Only the mount path (lines 119-127)
  hands out the per-volume sub-directory.
- On a stale record, the optimistic increment has already been undone when the
  directory creation runs. If that directory creation then fails, the count is
  decremented again. The count then ends one below its value before the call.
- A failed sub-directory creation takes back the user but leaves the share
  mounted.
- `Unmount` of a name with no record still runs `umount`, purges nothing, and
  removes the directory when it is empty.

## Model

| member | source | states |
|---|---|---|
| `Nfs.NewNFSDriver` | netshare/drivers/nfs.go:30-43 | The driver's option map holds the `nfsopts` key exactly when the given option string is non-empty, and then maps it to that string. The map has no other key. The other settings are kept as given. |
| `Nfs.SelectSource` | netshare/drivers/nfs.go:54-83 | The source choice changes no count and no mountpoint. It changes no record other than the resolved name's, and adds or removes none. An inline `share` option decides the source: the result is `fixSource` of that share, whatever is stored or configured. |
| `Nfs.SelectSourceAsWritten` | netshare/drivers/nfs.go:58-75 | The source choice exactly as written. It fails (`NilRecord`) only for a name that has no record. |
| `Nfs.DefaultOpts` | netshare/drivers/nfs.go:64-71 | The default options hold the share key exactly when a default share is configured, and the create key exactly when a default create value is configured, each with the configured value. They hold no other key. |
| `Nfs.FixSource` | netshare/drivers/nfs.go:172-177 | `fixSource` gives the normalised stored share when the record named by its argument has a share key, and the argument itself normalised otherwise. Its partner is `Lifecycle.SourcePrecedence`. |
| `Nfs.OptionString` | netshare/drivers/nfs.go:182-186 | With an `nfsopts` key in the merged options, the option string is its value. Without that key the string is empty. |
| `Nfs.PlanMount` | netshare/drivers/nfs.go:183-208 | Version 3 mounts as `nfs` and any other version as `nfs4`. A non-empty option string is always passed after `-o`. Version 3 with an empty option string passes `DefaultNfsV3`. Any other version with an empty option string passes no `-o`. Source and destination are passed unchanged. |
| `Nfs.CommandLine` | netshare/drivers/nfs.go:188-208 | The rendered command line starts with the `mount` program. Its complete forms are stated by `Nfs.MountCommandForms`. |
| `Nfs.MountCommandForms` | netshare/drivers/nfs.go:179-208 | `mountVolume`'s command (`MountCommand`) has one of three forms. Which one depends on the version and on the option string from the record's options merged with the driver's. Version 3 gives `mount -t nfs -o` and the option string, or `DefaultNfsV3` when it is empty. Any other version gives `mount -t nfs4 -o` and a non-empty option string, or `mount -t nfs4` with no `-o` when it is empty. Source then destination follow, and debug logging adds `-v` after `mount`. |
| `Nfs.FreshMount` | netshare/drivers/nfs.go:100-129 | The mount path. It touches no record but the resolved name's, and a record that existed still exists afterwards. A success leaves a record with one user more. A failed directory creation removes one user when the count is positive. The other failures leave the count as it was. Host operations are only appended to the trace. |
| `Nfs.MountStep` | netshare/drivers/nfs.go:45-130 | One `Mount` call. A success adds exactly one user to the resolved name, on the live, stale and fresh paths alike. A failure never raises the count. Only the resolved name's record changes. Host operations are only appended. |
| `Nfs.UnmountStep` | netshare/drivers/nfs.go:132-170 | One `Unmount` call. The count drops by one, floored at zero, whichever way the call ends. Only the resolved name's record changes. The host trace is untouched exactly when the name has a record with more than one user. |
| `Nfs.Mount` | netshare/drivers/nfs.go:45-130 | The registry after the method, the host it returns and its reply are what `MountStep` gives for the old registry. |
| `Nfs.ChooseSource` | netshare/drivers/nfs.go:54-83 | The in-place option writes and the chosen source are what `SelectSource` gives for the old registry. |
| `Nfs.MountOnHost` | netshare/drivers/nfs.go:100-129 | The registry, host and reply after the mount path are what `FreshMount` gives. |
| `Nfs.Unmount` | netshare/drivers/nfs.go:132-170 | The registry after the method, the host it returns and its reply are what `UnmountStep` gives for the old registry. |
| `Registry.Incremented` | netshare/drivers/nfs.go:85-87 | `Increment` adds one user to an existing record. It leaves the record's mountpoint and options and every other record as they were. An unknown name is ignored. |
| `Registry.Decremented` | netshare/drivers/nfs.go:91-93 | `Decrement` removes one user, floored at zero, and changes nothing else. |
| `Registry.Added` | netshare/drivers/nfs.go:112 | `Add` leaves a record for the name with one user more, the given mountpoint and the options it had (none for a new record). Other records are untouched. |
| `Registry.Created` | netshare/drivers/nfs.go:108-110 | `Create` inserts a record with no users, the given mountpoint and the given options. It leaves an existing record unchanged. |
| `Registry.WithOption` | netshare/drivers/nfs.go:60-71 | An in-place option write changes only that key of that record. It keeps the record's count and mountpoint. |
| `Registry.WithoutUnmanaged` | netshare/drivers/nfs.go:158 | `DeleteIfNotManaged` leaves the record exactly when the volume is managed (a non-empty share and a true create flag). It leaves every other record as it was. |
| `Registry.MountManager.Increment` | netshare/drivers/nfs.go:87 | The table becomes `Incremented` of the old table. |
| `Registry.MountManager.Decrement` | netshare/drivers/nfs.go:145-148 | The table becomes `Decremented` of the old table. |
| `Registry.MountManager.Add` | netshare/drivers/nfs.go:112 | The table becomes `Added` of the old table. |
| `Registry.MountManager.Create` | netshare/drivers/nfs.go:109 | The table becomes `Created` of the old table. |
| `Registry.MountManager.SetOption` | netshare/drivers/nfs.go:65-70 | The table becomes `WithOption` of the old table. It requires an existing record. |
| `Registry.MountManager.DeleteIfNotManaged` | netshare/drivers/nfs.go:158 | The table becomes `WithoutUnmanaged` of the old table. |
| `Lifecycle.SourcePrecedence` | netshare/drivers/nfs.go:58-83 | Without an inline share, the source is decided in this order. A non-empty stored share gives that share, normalised. With the create flag set, a missing share key gives the volume name, normalised. With the create flag set, a share key that is present but empty gives the empty share, normalised. With neither a non-empty stored share nor the create flag, the default share gives `fixSource` of it, and without a default share the source is empty. |
| `Lifecycle.DefaultsWrittenIntoRecord` | netshare/drivers/nfs.go:58-71 | A recorded volume with neither a stored share nor the create flag gets the non-empty default share and create values added to its options. Its other options stay as they were. Any other record keeps its options. |
| `Lifecycle.AsWrittenAbortsOnUnknownName` | netshare/drivers/nfs.go:58-62 | As written, the source choice fails with `NilRecord` for every name without a record. |
| `Lifecycle.AsWrittenAgreesOnRecordedName` | netshare/drivers/nfs.go:58-83 | For a name with a record, the as-written and the corrected source choice give the same result. |
| `Nfs.NewRecordOptsLayered` | netshare/drivers/nfs.go:64-109 | The options of the record a first mount creates (`NewRecordOpts`) hold every inline key and every configured default key. A configured default share or create value replaces the inline one, as lines 64-71 would write it. Every other inline value is kept, as passed at line 109. `Lifecycle.FirstMountWritesDefaults` shows the mount path stores exactly these options. |
| `Lifecycle.DefaultsSettle` | netshare/drivers/nfs.go:58-71 | Once a record holds the driver defaults on top of its options, the source choice writes nothing more into the registry. |
| `Lifecycle.UnknownNameMounts` | netshare/drivers/nfs.go:100-129 | With the corrected choice, a name without a record is mounted when the host operations succeed. Its new record holds exactly one user and the mountpoint is mounted. |
| `Lifecycle.FirstMountWritesDefaults` | netshare/drivers/nfs.go:58-112 | With the corrected choice, when the directory creation succeeds for a name with no record, its new record holds the inline options with the driver defaults written on top. These are the values lines 64-71 would write. Later source choices write nothing more into it. |
| `Lifecycle.LiveMountReuses` | netshare/drivers/nfs.go:85-97 | Mounting a recorded volume that is in the mount table adds one user. It returns the mountpoint and adds or removes no record. The only host operation it issues is the mount-table lookup: no mkdir, no mount. |
| `Lifecycle.StaleMountRemounts` | netshare/drivers/nfs.go:85-117 | Mounting a recorded volume missing from the mount table undoes the optimistic increment and mounts again. On success the net change is exactly +1 and the mountpoint is mounted. The trace is the lookup, the directory creation, one mount command and at most one more directory creation. |
| `Lifecycle.MkdirFailureRollsBack` | netshare/drivers/nfs.go:85-106 | When the directory creation fails, the call returns that error and mounts nothing. The count becomes the old count minus one when that was positive (the second decrement on a stale record). The record's existence is unchanged. |
| `Lifecycle.MountFailureRollsBack` | netshare/drivers/nfs.go:108-117 | When the mount command fails, the call returns that error. The count is as before the call, the record stays for a retry and nothing is mounted. |
| `Lifecycle.SubdirFailureRollsBack` | netshare/drivers/nfs.go:119-125 | When the sub-directory creation fails, the call returns that error. The count is as before the call and the share stays mounted. |
| `Lifecycle.MountedPath` | netshare/drivers/nfs.go:119-129 | A mount through the mount path returns `join(mountpoint, name)` when the record has a non-empty share and a true create flag, and the mountpoint otherwise. |
| `Lifecycle.UnmountKeepsSharedMount` | netshare/drivers/nfs.go:142-147 | With more than one user, unmount removes one user and keeps the record and its options. It issues no host operation at all: no `umount`, no removal. |
| `Lifecycle.UnmountFailureKeepsRecord` | netshare/drivers/nfs.go:142-156 | When `umount` fails, the call returns the error. No record is purged and the directory is neither listed nor removed. |
| `Lifecycle.UnmountTearsDown` | netshare/drivers/nfs.go:142-169 | After a successful `umount`, also for a name with no record: the record survives exactly when the volume is managed. The mountpoint is unmounted. The directory is listed and removed exactly when it is empty. The call fails only when that removal fails. |
| `Lifecycle.DefaultsOnlyNotManaged` | netshare/drivers/nfs.go:119 | A record holding only default values that do not combine a share with a true create flag is not managed. |
| `Lifecycle.LiveMounts` | netshare/drivers/nfs.go:85-97 | k mounts of any recorded volume that is in the mount table add k users and keep its mountpoint. Their only host operations are k lookups: the mount command is never issued again. A managed record keeps its options, and a record holding only driver defaults still holds only defaults. Other records are untouched. |
| `Lifecycle.FirstMountOfUnmanagedVolume` | netshare/drivers/nfs.go:100-129 | The first mount of a volume with no record and no inline options, under defaults that do not make it managed, creates its record with one user and only default options. Its trace is one directory creation and one mount command, and it returns the mountpoint. |
| `Lifecycle.FreshUnmanagedMount` | netshare/drivers/nfs.go:100-129 | The mount path for a name with no record and no inline options, under defaults that do not make it managed, with the host operations succeeding. The new record holds exactly the defaults and one user, and the mountpoint is returned. The trace is one directory creation and one mount command built from those options. |
| `Lifecycle.LastUnmountOfUnmanagedVolume` | netshare/drivers/nfs.go:142-169 | The unmount of the last user of any unmanaged volume unmounts it and purges its record. It lists and removes the empty mountpoint. |
| `Lifecycle.UnmanagedMounts` | netshare/drivers/nfs.go:45-130 | N mounts of a new volume with no inline options, under defaults that do not make it managed, leave N users. They issue one directory creation and one mount command, then N-1 lookups. `Lifecycle.NewVolumeMounts` is the general case. |
| `Lifecycle.UnmanagedUnmounts` | netshare/drivers/nfs.go:132-170 | N unmounts of any unmanaged volume with N users leave the registry without its record. The host sees only the final unmount, listing and removal. |
| `Lifecycle.SharedMountLifecycle` | netshare/drivers/nfs.go:45-170 | N mounts then N unmounts of a new volume with no inline options, under defaults that do not make it managed and with every host operation succeeding, leave the registry exactly as before and the mount table as before. `Lifecycle.NewManagedVolumeLifecycle` covers the other defaults, and `Lifecycle.NewVolumeLifecycle` any inline options. The share is mounted exactly once and unmounted exactly once. The exact host trace is stated. |
| `Lifecycle.FirstMountOfManagedVolume` | netshare/drivers/nfs.go:85-129 | The first mount of a managed volume created beforehand (a record with no users, not mounted) takes the stale path. It mounts the share once, creates the sub-directory and returns it. The record keeps its options and gets the mountpoint and one user. The exact trace is stated. |
| `Lifecycle.ManagedLiveMounts` | netshare/drivers/nfs.go:85-97 | k mounts of a live managed volume change exactly its count, by k, and add only k lookups to the trace. |
| `Lifecycle.ManagedMounts` | netshare/drivers/nfs.go:45-130 | N mounts of a managed volume created beforehand leave exactly N users on an otherwise unchanged record. They issue one lookup, one directory creation, one mount command and one sub-directory creation, then N-1 lookups. |
| `Lifecycle.ManagedUnmounts` | netshare/drivers/nfs.go:132-170 | N unmounts of a managed volume with N users keep its record, with no users and the same options. The host sees only the final unmount, listing and removal. |
| `Lifecycle.ManagedVolumeLifecycle` | netshare/drivers/nfs.go:45-170 | N mounts then N unmounts of a managed volume created beforehand, with every host operation succeeding, leave the mount table as before. The record is kept, with no users, the same options and the mountpoint recorded. The share is mounted exactly once and unmounted exactly once. The exact host trace is stated. |
| `Lifecycle.FreshManagedMount` | netshare/drivers/nfs.go:100-129 | The mount path for a name with no record and no inline options, under defaults that combine a share with a true create flag, with the host operations succeeding. The new record holds exactly the defaults and one user. The sub-directory is created and returned. |
| `Lifecycle.FirstMountOfNewManagedVolume` | netshare/drivers/nfs.go:45-129 | Under such managed defaults, the first mount of a volume with no record and no inline options makes it managed at once. Its record holds exactly the defaults and one user, and the call returns the sub-directory. The exact trace is stated. `Lifecycle.FirstMountOfNewVolume` is the general case. |
| `Lifecycle.NewManagedMounts` | netshare/drivers/nfs.go:45-130 | N mounts of a new volume with no inline options under managed defaults leave a record with the defaults and N users. They issue one directory creation, one mount command and one sub-directory creation, then N-1 lookups. `Lifecycle.NewVolumeMounts` is the general case. |
| `Lifecycle.NewManagedVolumeLifecycle` | netshare/drivers/nfs.go:45-170 | N mounts then N unmounts of a new volume with no inline options under managed defaults, with every host operation succeeding, leave the mount table as before. Unlike an unmanaged volume, the record is kept, with no users and the default options. The share is mounted exactly once and unmounted exactly once. The exact host trace is stated. |
| `Lifecycle.ManagedOpts` | netshare/drivers/nfs.go:119 | A record is managed exactly when its options hold a non-empty share and a true create flag; `Lifecycle.ManagedOptsAt` ties this to `Registry.ManagedAt`. |
| `Lifecycle.ManagedOptsAt` | netshare/drivers/nfs.go:119 | For a recorded name, `ManagedAt` of the registry holds exactly when its record's options are managed. |
| `Lifecycle.SettledLiveMount` | netshare/drivers/nfs.go:58-97 | One mount of a live volume whose record holds its inline options with the defaults on top. The source choice writes nothing, the count goes up by one and the only host operation is the lookup. |
| `Lifecycle.SettledOptsKept` | netshare/drivers/nfs.go:58-97 | k such mounts keep the record's options. |
| `Lifecycle.SettledLiveMounts` | netshare/drivers/nfs.go:58-97 | k mounts of a live volume whose record holds its inline options with the defaults on top change exactly its count, by k, and add only k lookups to the trace, whether or not it is managed. |
| `Lifecycle.FreshNewMount` | netshare/drivers/nfs.go:100-129 | The mount path for a name with no record and any inline options, with the host operations succeeding. The new record holds the inline options with the defaults on top and one user. The sub-directory is created and returned exactly when those options hold a non-empty share and a true create flag; otherwise the mountpoint is returned. The trace is one directory creation, one mount command built from those options and, when managed, one sub-directory creation. |
| `Lifecycle.FreshNewManagedMount` | netshare/drivers/nfs.go:100-129 | The managed half of `Lifecycle.FreshNewMount`: the sub-directory is created and returned. |
| `Lifecycle.FreshNewUnmanagedMount` | netshare/drivers/nfs.go:100-129 | The unmanaged half of `Lifecycle.FreshNewMount`: the mountpoint is returned and no sub-directory is created. |
| `Lifecycle.FirstMountOfNewVolume` | netshare/drivers/nfs.go:45-129 | The first mount of a volume with no record and any inline options, with the host operations succeeding, gives the result, record and trace of `Lifecycle.FreshNewMount`. The mount command is the one built from the record options. |
| `Lifecycle.NewVolumeMounts` | netshare/drivers/nfs.go:45-130 | N mounts of a new volume with any inline options leave a record holding those options with the defaults on top and N users. They issue one directory creation, one mount command and, when managed, one sub-directory creation, then N-1 lookups. |
| `Lifecycle.NewVolumeUnmounts` | netshare/drivers/nfs.go:132-170 | N unmounts of a volume that had no record before its N mounts keep its record with no users when its options make it managed, and otherwise leave the registry as it was before the mounts. The host sees only the final unmount, listing and removal. |
| `Lifecycle.NewVolumeLifecycle` | netshare/drivers/nfs.go:45-170 | N mounts then N unmounts of a new volume with any inline options, with every host operation succeeding, leave the mount table as before. A volume whose options hold a non-empty share and a true create flag keeps its record, with no users and those options; any other volume leaves the registry exactly as before. The share is mounted exactly once and unmounted exactly once. The exact host trace is stated. |
| `Lifecycle.SecondMountOfManagedVolume` | netshare/drivers/nfs.go:85-127 | For a new volume whose options make it managed, the first mount returns the sub-directory, while a second mount, taking the live path at lines 94-97, returns the mountpoint itself. |

## Left out

- The driver's mutex (lines 47-48, 135-136): each `Mount` and `Unmount` is one atomic step. Interleavings of concurrent callers are not modelled.
- Shell execution through `run`:
  - The `grep -c` lookup in `/proc/mounts` is membership of the mountpoint in the host's set of mounted paths. The model does not capture that grep matches any line containing the path.
  - `ls -1 | grep .` is membership in the set of non-empty directories.
  - The mount and `umount` commands are trace entries whose success is an input.
- `createDest` and `os.RemoveAll`: their success is an input. Paths are atoms: removing a tree removes only that path from the directories, and creating the sub-directory does not mark the mountpoint as non-empty.
- Go error values: an error is reported as the step that failed (`Error`), not as the message.
- Logging. The debug log level is one boolean of `Env`; it adds `-v` to the mount command.
- The plugin request and response types: a call takes a name string and returns a path or an error.
- `resolveName`, `mountpoint`, `addShareColon`, `merge`, `filepath.Join` and the boolean reading of option values are not part of this model. They are arbitrary functions given to the driver (`Env`, `MountManager.truthy`). No property of theirs is assumed: no colon idempotence and no merge precedence.
- The registry's own source file (`MountManager`) is not part of this model. Its operations have the contracts the driver relies on.
  - "Managed" is modelled as "non-empty share and true create flag", the condition the driver itself tests at line 119. Any flag the registry keeps for this is not modelled.
  - `Create` of an existing name is modelled as a no-op.
  - `Add` of a missing name is modelled as inserting a record with one user.
- `ShareOpt` and `CreateOpt` are declared elsewhere in the package. They are modelled as the keys `"share"` and `"create"`.
- `Nfs.MountStep`: for a name without a record it follows the corrected source choice, not the code's panic (see Findings). `Nfs.SelectSourceAsWritten` keeps the code's behaviour.
  - In the corrected choice, the driver defaults are laid over the inline options of the record created at line 109. For a missing name the test at line 58 always holds, so lines 64-71 would write them.
- `Lifecycle.UnmanagedMounts`, `Lifecycle.FirstMountOfUnmanagedVolume`, `Lifecycle.FreshUnmanagedMount` and `Lifecycle.SharedMountLifecycle` take a new volume with no inline options. `Lifecycle.NewVolumeMounts`, `Lifecycle.FirstMountOfNewVolume`, `Lifecycle.FreshNewMount` and `Lifecycle.NewVolumeLifecycle` state the same for any inline options.
- `Lifecycle.NewManagedMounts`, `Lifecycle.FirstMountOfNewManagedVolume`, `Lifecycle.FreshManagedMount` and `Lifecycle.NewManagedVolumeLifecycle` also take a new volume with no inline options; the general lemmas above cover the rest.
- The N-round lemmas assume every host operation succeeds. Failed host operations are covered call by call (the `RollsBack` and `UnmountFailureKeepsRecord` lemmas), not over N rounds.

## Findings

| source | as written | input that shows it | evidently intended | confidence | as-written member | corrected member |
|---|---|---|---|---|---|---|
| netshare/drivers/nfs.go:58-62 | When the registry holds no share and no create option for the name, the code writes into `mounts[resolvedName].opts` before checking that a record exists. The map's values are pointers: the assignment at line 61 only compiles for pointer elements. For a name with no record the entry is nil and the dereference panics. The record creation at lines 108-110 can then never run. | `Mount` of any name with no registry record, for example an unmanaged volume whose record was purged by its last `Unmount`. | Take the fresh-mount path, which creates the record at line 109, and put the default share and create values into that new record, as lines 64-71 do for an existing one. | high that the dereference fails; not executed | `Nfs.SelectSourceAsWritten`, exhibited by `Lifecycle.AsWrittenAbortsOnUnknownName` | `Nfs.SelectSource` with the record options of `Nfs.NewRecordOpts`, proved by `Lifecycle.UnknownNameMounts`, `Lifecycle.FirstMountWritesDefaults` and `Lifecycle.AsWrittenAgreesOnRecordedName` |

=== FILE: host.dfy ===
/**
 * The host as the NFS driver sees it: which paths are mounted (the mount
 * table), which directories exist and which of them hold entries, and the
 * ordered list of host operations the driver has issued. Whether an operation
 * that can fail succeeds is not decided here: it is an input (`Outcomes`).
 */
module Host {

  /** One host operation issued by the driver. */
  datatype Effect =
    | Grep(path: string)     // mount-table lookup of a path
    | Mkdir(path: string)    // create a directory (and its parents)
    | Exec(cmd: string)      // run a mount command line
    | Umount(path: string)   // unmount a path
    | List(path: string)     // list a directory to see whether it is empty
    | Remove(path: string)   // remove a directory tree

  datatype HostState = HostState(
    mounted: set<string>,
    dirs: set<string>,
    nonEmpty: set<string>,
    trace: seq<Effect>)

  /** Whether each fallible host operation of one driver call succeeds. */
  datatype Outcomes = Outcomes(mkdir: bool, mount: bool, subdir: bool, umount: bool, remove: bool)

  /** Mount-table lookup: is `p` currently mounted? */
  function IsMounted(h: HostState, p: string): (HostState, bool)
  {
    (h.(trace := h.trace + [Grep(p)]), p in h.mounted)
  }

  function CreateDest(h: HostState, p: string, ok: bool): HostState
  {
    h.(dirs := if ok then h.dirs + {p} else h.dirs, trace := h.trace + [Mkdir(p)])
  }

  /** Runs the mount command `cmd`, which mounts on `dest` when it succeeds. */
  function RunMount(h: HostState, cmd: string, dest: string, ok: bool): HostState
  {
    h.(mounted := if ok then h.mounted + {dest} else h.mounted, trace := h.trace + [Exec(cmd)])
  }

  function RunUmount(h: HostState, p: string, ok: bool): HostState
  {
    h.(mounted := if ok then h.mounted - {p} else h.mounted, trace := h.trace + [Umount(p)])
  }

  /** Directory listing: does `p` hold any entry? */
  function HasEntries(h: HostState, p: string): (HostState, bool)
  {
    (h.(trace := h.trace + [List(p)]), p in h.nonEmpty)
  }

  function RemoveAll(h: HostState, p: string, ok: bool): HostState
  {
    h.(dirs := if ok then h.dirs - {p} else h.dirs, trace := h.trace + [Remove(p)])
  }
}

=== FILE: lifecycle.dfy ===
/**
 * Properties of the NFS driver's mount lifecycle, proved about `MountStep`
 * and `UnmountStep` (which the `Mount` and `Unmount` methods are proved to
 * follow): source precedence, reuse of a live mount, remount of a stale one,
 * the rollback on each failure path, the three ways an unmount ends, and
 * what a run of N mounts followed by N unmounts of one volume does.
 */
module Lifecycle {
  import opened Registry
  import opened Host
  import opened Nfs

  // ---------------------------------------------------------------- source choice

  /**
   * Where the mount source comes from. Without an inline share: the stored
   * share when there is one, the name itself when only the create flag is set,
   * the empty stored share normalised when that key is present with the
   * create flag, else the driver's default share, else nothing at all (an
   * empty source).
   */
  lemma SourcePrecedence(d: Driver, reg: Mounts, rn: string, resOpts: Option<Options>)
    requires InlineShare(resOpts).None?
    ensures var src := SelectSource(d, reg, rn, resOpts).1;
      && (OptionOf(reg, rn, ShareOpt) != "" ==> src == d.env.addShareColon(OptionOf(reg, rn, ShareOpt)))
      && (!HasOptionOf(reg, rn, ShareOpt) && OptionAsBoolOf(reg, d.mountm.truthy, rn, CreateOpt) ==> src == d.env.addShareColon(rn))
      && (HasOptionOf(reg, rn, ShareOpt) && OptionOf(reg, rn, ShareOpt) == "" && OptionAsBoolOf(reg, d.mountm.truthy, rn, CreateOpt) ==>
            src == d.env.addShareColon(""))
      && (OptionOf(reg, rn, ShareOpt) == "" && !OptionAsBoolOf(reg, d.mountm.truthy, rn, CreateOpt) ==>
            src == if d.share != "" then FixSource(SelectSource(d, reg, rn, resOpts).0, d.env, d.share) else "")
  {
  }

  /**
   * A recorded volume with neither a share nor the create flag has the driver's
   * default share and create values written into its options; any other record
   * keeps its options.
   */
  lemma DefaultsWrittenIntoRecord(d: Driver, reg: Mounts, rn: string, resOpts: Option<Options>)
    requires rn in reg
    ensures var opts := reg[rn].opts;
      var opts' := SelectSource(d, reg, rn, resOpts).0[rn].opts;
      if OptionOf(reg, rn, ShareOpt) == "" && !OptionAsBoolOf(reg, d.mountm.truthy, rn, CreateOpt) then
        && (d.share != "" ==> ShareOpt in opts' && opts'[ShareOpt] == d.share)
        && (d.create != "" ==> CreateOpt in opts' && opts'[CreateOpt] == d.create)
        && (forall key :: key in opts' <==> key in opts || (key == ShareOpt && d.share != "") || (key == CreateOpt && d.create != ""))
        && (forall key :: key in opts && key != ShareOpt && key != CreateOpt ==> opts'[key] == opts[key])
      else
        opts' == opts
  {
  }

  /**
   * As written, the source choice reaches into the record of a name that has
   * none: every name without a record aborts the call.
   */
  lemma AsWrittenAbortsOnUnknownName(d: Driver, reg: Mounts, rn: string, resOpts: Option<Options>)
    requires rn !in reg
    ensures SelectSourceAsWritten(d, reg, rn, resOpts) == Err(NilRecord(rn))
  {
  }

  /** Where a record exists, the code as written and the corrected choice agree. */
  lemma AsWrittenAgreesOnRecordedName(d: Driver, reg: Mounts, rn: string, resOpts: Option<Options>)
    requires rn in reg
    ensures SelectSourceAsWritten(d, reg, rn, resOpts) == Ok(SelectSource(d, reg, rn, resOpts))
  {
  }

  /**
   * With the corrected choice, a name without a record is mounted: its record
   * is created and holds the call's single user.
   */
  lemma UnknownNameMounts(d: Driver, reg: Mounts, name: string, h: HostState, o: Outcomes)
    requires Resolved(d, name) !in reg && o.mkdir && o.mount && o.subdir
    ensures var out := MountStep(d, reg, name, h, o);
      && out.result.Ok?
      && Resolved(d, name) in out.reg
      && CountOf(out.reg, Resolved(d, name)) == 1
      && HostDir(d, name) in out.host.mounted
  {
  }

  /**
   * With the corrected choice, the record a first mount creates holds the
   * inline options with the driver defaults on top, and a later source choice
   * for the same name writes nothing more: whether the volume is managed is
   * settled by its first mount.
   */
  lemma FirstMountWritesDefaults(d: Driver, reg: Mounts, name: string, h: HostState, o: Outcomes)
    requires Resolved(d, name) !in reg && o.mkdir
    ensures var out := MountStep(d, reg, name, h, o);
      var resOpts := d.env.resolveName(name).1;
      && Resolved(d, name) in out.reg
      && out.reg[Resolved(d, name)].opts == NewRecordOpts(d, resOpts)
      && SelectSource(d, out.reg, Resolved(d, name), resOpts).0 == out.reg
  {
    var resOpts := d.env.resolveName(name).1;
    var out := MountStep(d, reg, name, h, o);
    DefaultsSettle(d, out.reg, Resolved(d, name), OptsOrEmpty(resOpts), resOpts);
  }

  /** A record whose options already carry the driver defaults on top is left as it is by the source choice. */
  lemma DefaultsSettle(d: Driver, reg: Mounts, rn: string, base: Options, resOpts: Option<Options>)
    requires rn in reg && reg[rn].opts == base + DefaultOpts(d)
    ensures SelectSource(d, reg, rn, resOpts).0 == reg
  {
    var opts := reg[rn].opts;
    if OptionOf(reg, rn, ShareOpt) == "" && !OptionAsBoolOf(reg, d.mountm.truthy, rn, CreateOpt) {
      assert d.share == "";
      if d.create != "" {
        assert opts[CreateOpt := d.create] == opts;
        assert WithOption(reg, rn, CreateOpt, d.create) == reg;
      }
    }
  }

  // ---------------------------------------------------------------- one Mount

  /**
   * Mount of a recorded volume that is still in the mount table: one more user,
   * the mountpoint returned as it is, and no host operation besides the lookup.
   */
  lemma LiveMountReuses(d: Driver, reg: Mounts, name: string, h: HostState, o: Outcomes)
    requires Resolved(d, name) in reg && HostDir(d, name) in h.mounted
    ensures var out := MountStep(d, reg, name, h, o);
      && out.result == Ok(HostDir(d, name))
      && CountOf(out.reg, Resolved(d, name)) == CountOf(reg, Resolved(d, name)) + 1
      && out.reg.Keys == reg.Keys
      && out.host == h.(trace := h.trace + [Grep(HostDir(d, name))])
  {
  }

  /**
   * Mount of a recorded volume missing from the mount table: the optimistic
   * increment is undone and the volume mounted again, so a success adds exactly
   * one user and issues the lookup, the directory creation and one mount command.
   */
  lemma StaleMountRemounts(d: Driver, reg: Mounts, name: string, h: HostState, o: Outcomes)
    requires Resolved(d, name) in reg && HostDir(d, name) !in h.mounted
    requires o.mkdir && o.mount && o.subdir
    ensures var out := MountStep(d, reg, name, h, o);
      && out.result.Ok?
      && CountOf(out.reg, Resolved(d, name)) == CountOf(reg, Resolved(d, name)) + 1
      && HostDir(d, name) in out.host.mounted
      && |h.trace| + 3 <= |out.host.trace| <= |h.trace| + 4
      && out.host.trace[|h.trace|] == Grep(HostDir(d, name))
      && out.host.trace[|h.trace| + 1] == Mkdir(HostDir(d, name))
      && out.host.trace[|h.trace| + 2].Exec?
      && (forall i :: |h.trace| + 3 <= i < |out.host.trace| ==> out.host.trace[i].Mkdir?)
  {
  }

  /** The call reaches the mount path: no record yet, or a record whose mount is gone. */
  predicate NotLive(d: Driver, reg: Mounts, name: string, h: HostState)
  {
    Resolved(d, name) !in reg || HostDir(d, name) !in h.mounted
  }

  /**
   * A failed directory creation issues no mount and decrements once more when
   * the count is positive. On a stale record the optimistic increment was
   * already undone, so the count ends one below its value before the call.
   */
  lemma MkdirFailureRollsBack(d: Driver, reg: Mounts, name: string, h: HostState, o: Outcomes)
    requires NotLive(d, reg, name, h) && !o.mkdir
    ensures var out := MountStep(d, reg, name, h, o);
      && out.result == Err(MkdirFailed(HostDir(d, name)))
      && CountOf(out.reg, Resolved(d, name)) ==
           (if CountOf(reg, Resolved(d, name)) > 0 then CountOf(reg, Resolved(d, name)) - 1 else 0)
      && (Resolved(d, name) in out.reg <==> Resolved(d, name) in reg)
      && out.host.mounted == h.mounted
  {
  }

  /**
   * A failed mount command takes back the user it registered: the count is as
   * before the call, the record (created if needed) stays for a retry, and
   * nothing new is mounted.
   */
  lemma MountFailureRollsBack(d: Driver, reg: Mounts, name: string, h: HostState, o: Outcomes)
    requires NotLive(d, reg, name, h) && o.mkdir && !o.mount
    ensures var out := MountStep(d, reg, name, h, o);
      && out.result.Err? && out.result.error.MountFailed?
      && CountOf(out.reg, Resolved(d, name)) == CountOf(reg, Resolved(d, name))
      && Resolved(d, name) in out.reg
      && out.host.mounted == h.mounted
  {
  }

  /**
   * A failed sub-directory creation takes back the user it registered, but the
   * share it mounted stays mounted.
   */
  lemma SubdirFailureRollsBack(d: Driver, reg: Mounts, name: string, h: HostState, o: Outcomes)
    requires NotLive(d, reg, name, h) && o.mkdir && o.mount && !o.subdir
    ensures var out := MountStep(d, reg, name, h, o);
      && (out.result.Err? ==>
            && out.result.error.SubdirFailed?
            && CountOf(out.reg, Resolved(d, name)) == CountOf(reg, Resolved(d, name))
            && HostDir(d, name) in out.host.mounted)
      && (out.result.Ok? ==> !ManagedAt(out.reg, d.mountm.truthy, Resolved(d, name)))
  {
  }

  /**
   * A mount that goes through the mount path returns the volume's own
   * sub-directory when the record has a share and the create flag, and the
   * mountpoint otherwise. (A live mount returns the mountpoint in every case.)
   */
  lemma MountedPath(d: Driver, reg: Mounts, name: string, h: HostState, o: Outcomes)
    requires NotLive(d, reg, name, h)
    ensures var out := MountStep(d, reg, name, h, o);
      out.result.Ok? ==>
        out.result.value ==
          if ManagedAt(out.reg, d.mountm.truthy, Resolved(d, name))
          then d.env.join(HostDir(d, name), Resolved(d, name))
          else HostDir(d, name)
  {
  }

  // ---------------------------------------------------------------- one Unmount

  /** Unmount while other users remain: one user fewer and nothing else at all. */
  lemma UnmountKeepsSharedMount(d: Driver, reg: Mounts, name: string, h: HostState, o: Outcomes)
    requires Resolved(d, name) in reg && CountOf(reg, Resolved(d, name)) > 1
    ensures var out := UnmountStep(d, reg, name, h, o);
      && out.result == Ok(())
      && Resolved(d, name) in out.reg
      && CountOf(out.reg, Resolved(d, name)) == CountOf(reg, Resolved(d, name)) - 1
      && out.reg[Resolved(d, name)].opts == reg[Resolved(d, name)].opts
      && out.host == h
  {
  }

  /** A failed `umount` is reported; the record is not purged and the directory not touched. */
  lemma UnmountFailureKeepsRecord(d: Driver, reg: Mounts, name: string, h: HostState, o: Outcomes)
    requires !(Resolved(d, name) in reg && CountOf(reg, Resolved(d, name)) > 1) && !o.umount
    ensures var out := UnmountStep(d, reg, name, h, o);
      && out.result == Err(UmountFailed(HostDir(d, name)))
      && out.reg.Keys == reg.Keys
      && CountOf(out.reg, Resolved(d, name)) == 0
      && out.host == h.(trace := h.trace + [Umount(HostDir(d, name))])
  {
  }

  /**
   * A successful `umount` (also of a name with no record): the record is purged
   * unless the volume is managed, and the directory is removed exactly when it
   * is empty.
   */
  lemma UnmountTearsDown(d: Driver, reg: Mounts, name: string, h: HostState, o: Outcomes)
    requires !(Resolved(d, name) in reg && CountOf(reg, Resolved(d, name)) > 1) && o.umount
    ensures var out := UnmountStep(d, reg, name, h, o);
      var hostdir := HostDir(d, name);
      && (Resolved(d, name) in out.reg <==> ManagedAt(reg, d.mountm.truthy, Resolved(d, name)))
      && CountOf(out.reg, Resolved(d, name)) == 0
      && hostdir !in out.host.mounted
      && out.host.trace == h.trace + [Umount(hostdir), List(hostdir)] + (if hostdir in h.nonEmpty then [] else [Remove(hostdir)])
      && (hostdir in out.host.dirs <==> hostdir in h.dirs && (hostdir in h.nonEmpty || !o.remove))
      && (out.result.Ok? <==> hostdir in h.nonEmpty || o.remove)
  {
  }

  // ---------------------------------------------------------------- sequences of calls

  function Repeat<T>(x: T, n: nat): (s: seq<T>)
    ensures |s| == n
    ensures forall i :: 0 <= i < n ==> s[i] == x
  {
    if n == 0 then [] else [x] + Repeat(x, n - 1)
  }

  /** Registry and host after `k` mounts of `name`, served one at a time under the lock. */
  function MountTimes(d: Driver, reg: Mounts, h: HostState, name: string, k: nat, o: Outcomes): (Mounts, HostState)
    decreases k
  {
    if k == 0 then (reg, h)
    else
      var out := MountStep(d, reg, name, h, o);
      MountTimes(d, out.reg, out.host, name, k - 1, o)
  }

  /** Registry and host after `k` unmounts of `name`, served one at a time under the lock. */
  function UnmountTimes(d: Driver, reg: Mounts, h: HostState, name: string, k: nat, o: Outcomes): (Mounts, HostState)
    decreases k
  {
    if k == 0 then (reg, h)
    else
      var out := UnmountStep(d, reg, name, h, o);
      UnmountTimes(d, out.reg, out.host, name, k - 1, o)
  }

  /** Registry and host after `n` mounts of `name` followed by `n` unmounts of it. */
  function Rounds(d: Driver, reg: Mounts, h: HostState, name: string, n: nat, o: Outcomes): (Mounts, HostState)
  {
    var mounted := MountTimes(d, reg, h, name, n, o);
    UnmountTimes(d, mounted.0, mounted.1, name, n, o)
  }

  /** The record holds nothing but the driver's non-empty default share and create values. */
  ghost predicate DefaultsOnly(d: Driver, rec: Record)
  {
    && rec.opts.Keys <= {ShareOpt, CreateOpt}
    && (ShareOpt in rec.opts ==> d.share != "" && rec.opts[ShareOpt] == d.share)
    && (CreateOpt in rec.opts ==> d.create != "" && rec.opts[CreateOpt] == d.create)
  }

  /** The driver's defaults do not by themselves make a volume managed. */
  predicate UnmanagedDefaults(d: Driver)
  {
    !(d.share != "" && d.create != "" && d.mountm.truthy(d.create))
  }

  lemma DefaultsOnlyNotManaged(d: Driver, reg: Mounts, rn: string)
    requires rn in reg && DefaultsOnly(d, reg[rn]) && UnmanagedDefaults(d)
    ensures !ManagedAt(reg, d.mountm.truthy, rn)
  {
  }

  lemma OthersUnchangedTrans(a: Mounts, b: Mounts, c: Mounts, rn: string)
    requires OthersUnchanged(a, b, rn) && OthersUnchanged(b, c, rn)
    ensures OthersUnchanged(a, c, rn)
  {
  }

  /** A registry that differs from `reg` only at `rn` is `reg` with the entry of `rn` replaced. */
  lemma Reassemble(reg: Mounts, r: Mounts, rn: string, rec: Record)
    requires rn in r && r[rn] == rec && OthersUnchanged(reg, r, rn)
    ensures r == reg[rn := rec]
  {
  }

  /** Two registries that differ only at `rn` agree once `rn` is dropped from both. */
  lemma DroppedAlike(reg: Mounts, r: Mounts, rn: string)
    requires OthersUnchanged(reg, r, rn)
    ensures r - {rn} == reg - {rn}
    ensures rn !in reg ==> r - {rn} == reg
  {
  }

  lemma Overwrite(reg: Mounts, rn: string, a: Record, b: Record)
    ensures reg[rn := a][rn := b] == reg[rn := b]
  {
  }

  lemma DecrementedAt(reg: Mounts, rn: string)
    requires rn in reg && reg[rn].count > 0
    ensures Decremented(reg, rn) == reg[rn := reg[rn].(count := reg[rn].count - 1)]
  {
  }

  /**
   * Repeated mounts of a live volume: each adds one user and only looks the
   * mountpoint up; no mount command is ever issued again.
   */
  lemma {:induction false} LiveMounts(d: Driver, reg: Mounts, h: HostState, name: string, k: nat, o: Outcomes)
    requires Resolved(d, name) in reg && HostDir(d, name) in h.mounted
    ensures var r := MountTimes(d, reg, h, name, k, o);
      && Resolved(d, name) in r.0
      && CountOf(r.0, Resolved(d, name)) == CountOf(reg, Resolved(d, name)) + k
      && r.0[Resolved(d, name)].hostdir == reg[Resolved(d, name)].hostdir
      && (ManagedAt(reg, d.mountm.truthy, Resolved(d, name)) ==> r.0[Resolved(d, name)].opts == reg[Resolved(d, name)].opts)
      && (DefaultsOnly(d, reg[Resolved(d, name)]) ==> DefaultsOnly(d, r.0[Resolved(d, name)]))
      && OthersUnchanged(reg, r.0, Resolved(d, name))
      && r.1 == h.(trace := h.trace + Repeat(Grep(HostDir(d, name)), k))
    decreases k
  {
    var rn, hostdir := Resolved(d, name), HostDir(d, name);
    if k == 0 {
      assert h.trace + [] == h.trace;
    } else {
      var out := MountStep(d, reg, name, h, o);
      LiveMountReuses(d, reg, name, h, o);
      DefaultsWrittenIntoRecord(d, reg, rn, d.env.resolveName(name).1);
      LiveMounts(d, out.reg, out.host, name, k - 1, o);
      OthersUnchangedTrans(reg, out.reg, MountTimes(d, out.reg, out.host, name, k - 1, o).0, rn);
      assert h.trace + Repeat(Grep(hostdir), k) == h.trace + [Grep(hostdir)] + Repeat(Grep(hostdir), k - 1);
    }
  }

  /**
   * The mount command a call that takes the mount path issues, from the
   * registry before the call: the chosen source and the options of the record
   * (the existing one, or the one the call creates). `MountCommand` states its
   * three forms.
   */
  function MountPathCommand(d: Driver, reg: Mounts, name: string): string
  {
    var (rn, resOpts) := d.env.resolveName(name);
    var hostdir := HostDir(d, name);
    var (reg1, source) := SelectSource(d, reg, rn, resOpts);
    MountCommand(d, if rn in reg1 then reg1[rn].opts else NewRecordOpts(d, resOpts), source, hostdir)
  }

  /** The first mount of a new unmanaged volume without inline options creates its record with one user and mounts the share. */
  lemma FirstMountOfUnmanagedVolume(d: Driver, reg: Mounts, h: HostState, name: string, o: Outcomes)
    requires Resolved(d, name) !in reg && d.env.resolveName(name).1 == None
    requires UnmanagedDefaults(d) && o.mkdir && o.mount
    ensures var out := MountStep(d, reg, name, h, o);
      var hostdir := HostDir(d, name);
      && out.result == Ok(hostdir)
      && Resolved(d, name) in out.reg
      && CountOf(out.reg, Resolved(d, name)) == 1
      && DefaultsOnly(d, out.reg[Resolved(d, name)])
      && OthersUnchanged(reg, out.reg, Resolved(d, name))
      && out.host == HostState(h.mounted + {hostdir}, h.dirs + {hostdir}, h.nonEmpty,
                               h.trace + [Mkdir(hostdir), Exec(MountPathCommand(d, reg, name))])
  {
    var rn := Resolved(d, name);
    FreshUnmanagedMount(d, reg, rn, HostDir(d, name), SelectSource(d, reg, rn, None).1, h, o);
  }

  /** The mount path for a name with no record under defaults that do not make it managed. */
  lemma FreshUnmanagedMount(d: Driver, reg: Mounts, rn: string, hostdir: string, source: string, h: HostState, o: Outcomes)
    requires rn !in reg && UnmanagedDefaults(d) && o.mkdir && o.mount
    ensures var out := FreshMount(d, reg, rn, None, hostdir, source, h, o);
      && out.result == Ok(hostdir)
      && out.reg == reg[rn := Record(hostdir, DefaultOpts(d), 1)]
      && out.host == HostState(h.mounted + {hostdir}, h.dirs + {hostdir}, h.nonEmpty,
                               h.trace + [Mkdir(hostdir), Exec(MountCommand(d, NewRecordOpts(d, None), source, hostdir))])
  {
    assert NewRecordOpts(d, None) == DefaultOpts(d);
  }

  /**
   * The unmount of the last user of an unmanaged volume unmounts it,
   * purges the record and removes the empty mountpoint.
   */
  lemma LastUnmountOfUnmanagedVolume(d: Driver, reg: Mounts, h: HostState, name: string, o: Outcomes)
    requires Resolved(d, name) in reg && CountOf(reg, Resolved(d, name)) == 1
    requires !ManagedAt(reg, d.mountm.truthy, Resolved(d, name))
    requires HostDir(d, name) !in h.nonEmpty && o.umount && o.remove
    ensures var out := UnmountStep(d, reg, name, h, o);
      var hostdir := HostDir(d, name);
      && out.result == Ok(())
      && out.reg == reg - {Resolved(d, name)}
      && out.host == HostState(h.mounted - {hostdir}, h.dirs - {hostdir}, h.nonEmpty,
                               h.trace + [Umount(hostdir), List(hostdir), Remove(hostdir)])
  {
  }

  /** N mounts of a new unmanaged volume without inline options: one mount command, then N - 1 lookups of the live mount. */
  lemma UnmanagedMounts(d: Driver, reg: Mounts, h: HostState, name: string, n: nat, o: Outcomes)
    requires n >= 1
    requires Resolved(d, name) !in reg && d.env.resolveName(name).1 == None
    requires UnmanagedDefaults(d) && o.mkdir && o.mount
    ensures var r := MountTimes(d, reg, h, name, n, o);
      var hostdir := HostDir(d, name);
      && Resolved(d, name) in r.0
      && CountOf(r.0, Resolved(d, name)) == n
      && DefaultsOnly(d, r.0[Resolved(d, name)])
      && OthersUnchanged(reg, r.0, Resolved(d, name))
      && r.1 == HostState(h.mounted + {hostdir}, h.dirs + {hostdir}, h.nonEmpty,
                          h.trace + [Mkdir(hostdir), Exec(MountPathCommand(d, reg, name))]
                                  + Repeat(Grep(hostdir), n - 1))
  {
    var rn := Resolved(d, name);
    var first := MountStep(d, reg, name, h, o);
    FirstMountOfUnmanagedVolume(d, reg, h, name, o);
    LiveMounts(d, first.reg, first.host, name, n - 1, o);
    OthersUnchangedTrans(reg, first.reg, MountTimes(d, first.reg, first.host, name, n - 1, o).0, rn);
  }

  /**
   * N unmounts of an unmanaged volume with N users: nothing reaches the host until
   * the last, which tears the mount down and purges the record.
   */
  lemma {:induction false} UnmanagedUnmounts(d: Driver, reg: Mounts, h: HostState, name: string, n: nat, o: Outcomes)
    requires n >= 1
    requires Resolved(d, name) in reg && CountOf(reg, Resolved(d, name)) == n
    requires !ManagedAt(reg, d.mountm.truthy, Resolved(d, name))
    requires HostDir(d, name) !in h.nonEmpty && o.umount && o.remove
    ensures var r := UnmountTimes(d, reg, h, name, n, o);
      var hostdir := HostDir(d, name);
      && r.0 == reg - {Resolved(d, name)}
      && r.1 == HostState(h.mounted - {hostdir}, h.dirs - {hostdir}, h.nonEmpty,
                          h.trace + [Umount(hostdir), List(hostdir), Remove(hostdir)])
    decreases n
  {
    var rn := Resolved(d, name);
    var out := UnmountStep(d, reg, name, h, o);
    if n == 1 {
      LastUnmountOfUnmanagedVolume(d, reg, h, name, o);
    } else {
      UnmountKeepsSharedMount(d, reg, name, h, o);
      UnmanagedUnmounts(d, out.reg, out.host, name, n - 1, o);
      DroppedAlike(reg, out.reg, rn);
    }
  }

  /**
   * N mounts of a new unmanaged volume without inline options followed by N
   * unmounts, all host operations succeeding: the share is mounted once and unmounted once, the registry ends
   * exactly as it began (no record), and the empty mountpoint is removed.
   */
  lemma SharedMountLifecycle(d: Driver, reg: Mounts, h: HostState, name: string, n: nat)
    requires n >= 1
    requires Resolved(d, name) !in reg && d.env.resolveName(name).1 == None
    requires UnmanagedDefaults(d)
    requires HostDir(d, name) !in h.mounted && HostDir(d, name) !in h.nonEmpty
    ensures var o := Outcomes(true, true, true, true, true);
      var hostdir := HostDir(d, name);
      var r := Rounds(d, reg, h, name, n, o);
      && r.0 == reg
      && r.1 == HostState(h.mounted, h.dirs - {hostdir}, h.nonEmpty,
                          h.trace + [Mkdir(hostdir), Exec(MountPathCommand(d, reg, name))]
                                  + Repeat(Grep(hostdir), n - 1)
                                  + [Umount(hostdir), List(hostdir), Remove(hostdir)])
  {
    var o := Outcomes(true, true, true, true, true);
    var rn, hostdir := Resolved(d, name), HostDir(d, name);
    UnmanagedMounts(d, reg, h, name, n, o);
    var mounted := MountTimes(d, reg, h, name, n, o);
    DefaultsOnlyNotManaged(d, mounted.0, rn);
    UnmanagedUnmounts(d, mounted.0, mounted.1, name, n, o);
    DroppedAlike(reg, mounted.0, rn);
    var unmounted := UnmountTimes(d, mounted.0, mounted.1, name, n, o).1;
    MountedOnce(h, mounted.1, unmounted, hostdir, h.dirs + {hostdir},
                h.trace + [Mkdir(hostdir), Exec(MountPathCommand(d, reg, name))] + Repeat(Grep(hostdir), n - 1),
                [Umount(hostdir), List(hostdir), Remove(hostdir)]);
    assert h.dirs + {hostdir} - {hostdir} == h.dirs - {hostdir};
  }

  /** A mount of `hostdir` undone by its unmount leaves the mount table as it was. */
  lemma MountedOnce(h: HostState, mounted: HostState, unmounted: HostState, hostdir: string, dirs: set<string>,
                    t: seq<Effect>, post: seq<Effect>)
    requires hostdir !in h.mounted
    requires mounted == HostState(h.mounted + {hostdir}, dirs, h.nonEmpty, t)
    requires unmounted == HostState(mounted.mounted - {hostdir}, mounted.dirs - {hostdir}, mounted.nonEmpty, mounted.trace + post)
    ensures unmounted == HostState(h.mounted, dirs - {hostdir}, h.nonEmpty, t + post)
  {
    assert h.mounted + {hostdir} - {hostdir} == h.mounted;
  }

  // ---------------------------------------------------------------- a managed volume


  /**
   * The first mount of a managed volume that has a record but no users and is
   * not mounted: the lookup finds no mount, so the share is mounted and the
   * volume's sub-directory is created and returned.
   */
  lemma FirstMountOfManagedVolume(d: Driver, reg: Mounts, h: HostState, name: string, o: Outcomes)
    requires Resolved(d, name) in reg && CountOf(reg, Resolved(d, name)) == 0
    requires ManagedAt(reg, d.mountm.truthy, Resolved(d, name))
    requires HostDir(d, name) !in h.mounted && o.mkdir && o.mount && o.subdir
    ensures var out := MountStep(d, reg, name, h, o);
      var rn, hostdir := Resolved(d, name), HostDir(d, name);
      var datavol := d.env.join(hostdir, rn);
      && out.result == Ok(datavol)
      && out.reg == reg[rn := reg[rn].(hostdir := hostdir, count := 1)]
      && out.host == HostState(h.mounted + {hostdir}, h.dirs + {hostdir} + {datavol}, h.nonEmpty,
                               h.trace + [Grep(hostdir), Mkdir(hostdir), Exec(MountPathCommand(d, reg, name)), Mkdir(datavol)])
  {
  }

  /** Mounts of a live managed volume change nothing but its count and the lookups in the trace. */
  lemma {:induction false} ManagedLiveMounts(d: Driver, reg: Mounts, h: HostState, name: string, k: nat, o: Outcomes)
    requires Resolved(d, name) in reg && HostDir(d, name) in h.mounted
    requires ManagedAt(reg, d.mountm.truthy, Resolved(d, name))
    ensures var rn, r := Resolved(d, name), MountTimes(d, reg, h, name, k, o);
      && r.0 == reg[rn := reg[rn].(count := reg[rn].count + k)]
      && r.1 == h.(trace := h.trace + Repeat(Grep(HostDir(d, name)), k))
  {
    var rn := Resolved(d, name);
    LiveMounts(d, reg, h, name, k, o);
    var r := MountTimes(d, reg, h, name, k, o).0;
    var rec := reg[rn].(count := reg[rn].count + k);
    assert r[rn] == rec;
    Reassemble(reg, r, rn, rec);
  }

  /** N mounts of such a managed volume: one mount command and one sub-directory, then N - 1 lookups. */
  lemma ManagedMounts(d: Driver, reg: Mounts, h: HostState, name: string, n: nat, o: Outcomes)
    requires n >= 1
    requires Resolved(d, name) in reg && CountOf(reg, Resolved(d, name)) == 0
    requires ManagedAt(reg, d.mountm.truthy, Resolved(d, name))
    requires HostDir(d, name) !in h.mounted && o.mkdir && o.mount && o.subdir
    ensures var rn, hostdir := Resolved(d, name), HostDir(d, name);
      var datavol := d.env.join(hostdir, rn);
      var r := MountTimes(d, reg, h, name, n, o);
      && r.0 == reg[rn := reg[rn].(hostdir := hostdir, count := n)]
      && r.1 == HostState(h.mounted + {hostdir}, h.dirs + {hostdir} + {datavol}, h.nonEmpty,
                          h.trace + [Grep(hostdir), Mkdir(hostdir), Exec(MountPathCommand(d, reg, name)), Mkdir(datavol)]
                                  + Repeat(Grep(hostdir), n - 1))
  {
    var rn, hostdir := Resolved(d, name), HostDir(d, name);
    var datavol := d.env.join(hostdir, rn);
    var first := MountStep(d, reg, name, h, o);
    FirstMountOfManagedVolume(d, reg, h, name, o);
    ManagedLiveMounts(d, first.reg, first.host, name, n - 1, o);
    Overwrite(reg, rn, first.reg[rn], first.reg[rn].(count := first.reg[rn].count + (n - 1)));
  }

  /**
   * N unmounts of a managed volume with N users: nothing reaches the host until
   * the last, which unmounts it and removes the empty mountpoint; the record
   * stays, with no users and its options.
   */
  lemma {:induction false} ManagedUnmounts(d: Driver, reg: Mounts, h: HostState, name: string, n: nat, o: Outcomes)
    requires n >= 1
    requires Resolved(d, name) in reg && CountOf(reg, Resolved(d, name)) == n
    requires ManagedAt(reg, d.mountm.truthy, Resolved(d, name))
    requires HostDir(d, name) !in h.nonEmpty && o.umount && o.remove
    ensures var rn, hostdir := Resolved(d, name), HostDir(d, name);
      var r := UnmountTimes(d, reg, h, name, n, o);
      && r.0 == reg[rn := reg[rn].(count := 0)]
      && r.1 == HostState(h.mounted - {hostdir}, h.dirs - {hostdir}, h.nonEmpty,
                          h.trace + [Umount(hostdir), List(hostdir), Remove(hostdir)])
    decreases n
  {
    var rn := Resolved(d, name);
    var out := UnmountStep(d, reg, name, h, o);
    DecrementedAt(reg, rn);
    if n > 1 {
      ManagedUnmounts(d, out.reg, out.host, name, n - 1, o);
      Overwrite(reg, rn, reg[rn].(count := n - 1), reg[rn].(count := 0));
    }
  }

  /**
   * N mounts then N unmounts of a managed volume created beforehand (a record
   * with a share and the create flag, no users, not mounted), all host
   * operations succeeding: the share is mounted once and unmounted once, the
   * record is kept with no users and its options, and the mount table is as
   * before.
   */
  lemma ManagedVolumeLifecycle(d: Driver, reg: Mounts, h: HostState, name: string, n: nat)
    requires n >= 1
    requires Resolved(d, name) in reg && CountOf(reg, Resolved(d, name)) == 0
    requires ManagedAt(reg, d.mountm.truthy, Resolved(d, name))
    requires HostDir(d, name) !in h.mounted && HostDir(d, name) !in h.nonEmpty
    ensures var o := Outcomes(true, true, true, true, true);
      var rn, hostdir := Resolved(d, name), HostDir(d, name);
      var datavol := d.env.join(hostdir, rn);
      var r := Rounds(d, reg, h, name, n, o);
      && r.0 == reg[rn := reg[rn].(hostdir := hostdir)]
      && r.1 == HostState(h.mounted, h.dirs + {hostdir} + {datavol} - {hostdir}, h.nonEmpty,
                          h.trace + [Grep(hostdir), Mkdir(hostdir), Exec(MountPathCommand(d, reg, name)), Mkdir(datavol)]
                                  + Repeat(Grep(hostdir), n - 1)
                                  + [Umount(hostdir), List(hostdir), Remove(hostdir)])
  {
    var o := Outcomes(true, true, true, true, true);
    var rn, hostdir := Resolved(d, name), HostDir(d, name);
    var datavol := d.env.join(hostdir, rn);
    var live := reg[rn := reg[rn].(hostdir := hostdir, count := n)];
    var liveHost := HostState(h.mounted + {hostdir}, h.dirs + {hostdir} + {datavol}, h.nonEmpty,
                              h.trace + [Grep(hostdir), Mkdir(hostdir), Exec(MountPathCommand(d, reg, name)), Mkdir(datavol)]
                                      + Repeat(Grep(hostdir), n - 1));
    ManagedMounts(d, reg, h, name, n, o);
    ManagedUnmounts(d, live, liveHost, name, n, o);
    Overwrite(reg, rn, live[rn], reg[rn].(hostdir := hostdir));
    MountedOnce(h, liveHost, UnmountTimes(d, live, liveHost, name, n, o).1, hostdir, h.dirs + {hostdir} + {datavol},
                liveHost.trace, [Umount(hostdir), List(hostdir), Remove(hostdir)]);
  }

  // ---------------------------------------------------------------- a new volume under managed defaults

  /**
   * The first mount of a volume with no record and no inline options, when the
   * driver defaults combine a share with a true create flag: the new record
   * holds exactly the defaults, so the volume is managed from its first mount
   * and gets its sub-directory.
   */
  lemma FirstMountOfNewManagedVolume(d: Driver, reg: Mounts, h: HostState, name: string, o: Outcomes)
    requires Resolved(d, name) !in reg && d.env.resolveName(name).1 == None
    requires !UnmanagedDefaults(d) && o.mkdir && o.mount && o.subdir
    ensures var out := MountStep(d, reg, name, h, o);
      var rn, hostdir := Resolved(d, name), HostDir(d, name);
      var datavol := d.env.join(hostdir, rn);
      && out.result == Ok(datavol)
      && out.reg == reg[rn := Record(hostdir, DefaultOpts(d), 1)]
      && out.host == HostState(h.mounted + {hostdir}, h.dirs + {hostdir} + {datavol}, h.nonEmpty,
                               h.trace + [Mkdir(hostdir), Exec(MountPathCommand(d, reg, name)), Mkdir(datavol)])
  {
    var rn, hostdir := Resolved(d, name), HostDir(d, name);
    var source := SelectSource(d, reg, rn, None).1;
    FreshManagedMount(d, reg, rn, hostdir, source, h, o);
  }

  /** The mount path for a name with no record under managed defaults. */
  lemma FreshManagedMount(d: Driver, reg: Mounts, rn: string, hostdir: string, source: string, h: HostState, o: Outcomes)
    requires rn !in reg && !UnmanagedDefaults(d) && o.mkdir && o.mount && o.subdir
    ensures var out := FreshMount(d, reg, rn, None, hostdir, source, h, o);
      var datavol := d.env.join(hostdir, rn);
      && out.result == Ok(datavol)
      && out.reg == reg[rn := Record(hostdir, DefaultOpts(d), 1)]
      && out.host == HostState(h.mounted + {hostdir}, h.dirs + {hostdir} + {datavol}, h.nonEmpty,
                               h.trace + [Mkdir(hostdir), Exec(MountCommand(d, NewRecordOpts(d, None), source, hostdir)), Mkdir(datavol)])
  {
    assert NewRecordOpts(d, None) == DefaultOpts(d);
  }

  /** A record holding exactly the driver defaults is managed when those defaults are. */
  lemma DefaultsManaged(d: Driver, reg: Mounts, rn: string)
    requires rn in reg && reg[rn].opts == DefaultOpts(d) && !UnmanagedDefaults(d)
    ensures ManagedAt(reg, d.mountm.truthy, rn)
  {
  }

  /** N mounts of a new volume under managed defaults: one mount command and one sub-directory, then N - 1 lookups. */
  lemma NewManagedMounts(d: Driver, reg: Mounts, h: HostState, name: string, n: nat, o: Outcomes)
    requires n >= 1
    requires Resolved(d, name) !in reg && d.env.resolveName(name).1 == None
    requires !UnmanagedDefaults(d) && o.mkdir && o.mount && o.subdir
    ensures var rn, hostdir := Resolved(d, name), HostDir(d, name);
      var datavol := d.env.join(hostdir, rn);
      var r := MountTimes(d, reg, h, name, n, o);
      && r.0 == reg[rn := Record(hostdir, DefaultOpts(d), n)]
      && r.1 == HostState(h.mounted + {hostdir}, h.dirs + {hostdir} + {datavol}, h.nonEmpty,
                          h.trace + [Mkdir(hostdir), Exec(MountPathCommand(d, reg, name)), Mkdir(datavol)]
                                  + Repeat(Grep(hostdir), n - 1))
  {
    var rn, hostdir := Resolved(d, name), HostDir(d, name);
    var first := MountStep(d, reg, name, h, o);
    FirstMountOfNewManagedVolume(d, reg, h, name, o);
    ManagedLiveMounts(d, first.reg, first.host, name, n - 1, o);
    Overwrite(reg, rn, first.reg[rn], first.reg[rn].(count := first.reg[rn].count + (n - 1)));
  }

  /**
   * N mounts then N unmounts of a new volume under managed defaults, all host
   * operations succeeding: the share is mounted once and unmounted once, the
   * mount table is as before, and, unlike an unmanaged volume, the record is kept
   * with no users and the default options.
   */
  lemma NewManagedVolumeLifecycle(d: Driver, reg: Mounts, h: HostState, name: string, n: nat)
    requires n >= 1
    requires Resolved(d, name) !in reg && d.env.resolveName(name).1 == None
    requires !UnmanagedDefaults(d)
    requires HostDir(d, name) !in h.mounted && HostDir(d, name) !in h.nonEmpty
    ensures var o := Outcomes(true, true, true, true, true);
      var rn, hostdir := Resolved(d, name), HostDir(d, name);
      var datavol := d.env.join(hostdir, rn);
      var r := Rounds(d, reg, h, name, n, o);
      && r.0 == reg[rn := Record(hostdir, DefaultOpts(d), 0)]
      && r.1 == HostState(h.mounted, h.dirs + {hostdir} + {datavol} - {hostdir}, h.nonEmpty,
                          h.trace + [Mkdir(hostdir), Exec(MountPathCommand(d, reg, name)), Mkdir(datavol)]
                                  + Repeat(Grep(hostdir), n - 1)
                                  + [Umount(hostdir), List(hostdir), Remove(hostdir)])
  {
    var o := Outcomes(true, true, true, true, true);
    var rn, hostdir := Resolved(d, name), HostDir(d, name);
    var datavol := d.env.join(hostdir, rn);
    var live := reg[rn := Record(hostdir, DefaultOpts(d), n)];
    var liveHost := HostState(h.mounted + {hostdir}, h.dirs + {hostdir} + {datavol}, h.nonEmpty,
                              h.trace + [Mkdir(hostdir), Exec(MountPathCommand(d, reg, name)), Mkdir(datavol)]
                                      + Repeat(Grep(hostdir), n - 1));
    NewManagedMounts(d, reg, h, name, n, o);
    DefaultsManaged(d, live, rn);
    ManagedUnmounts(d, live, liveHost, name, n, o);
    Overwrite(reg, rn, live[rn], Record(hostdir, DefaultOpts(d), 0));
    MountedOnce(h, liveHost, UnmountTimes(d, live, liveHost, name, n, o).1, hostdir, h.dirs + {hostdir} + {datavol},
                liveHost.trace, [Umount(hostdir), List(hostdir), Remove(hostdir)]);
  }

  // ---------------------------------------------------------------- a new volume, any inline options

  /** Options that make a record managed: a non-empty share and a true create flag (line 119). */
  predicate ManagedOpts(d: Driver, opts: Options)
  {
    ShareOpt in opts && opts[ShareOpt] != "" && CreateOpt in opts && d.mountm.truthy(opts[CreateOpt])
  }

  /**
   * k mounts of a live volume whose record already holds its inline options
   * with the driver defaults on top: only the count changes, by k, and only
   * k lookups are added to the trace.
   */
  lemma SettledLiveMounts(d: Driver, reg: Mounts, h: HostState, name: string, k: nat, o: Outcomes)
    requires Resolved(d, name) in reg && HostDir(d, name) in h.mounted
    requires reg[Resolved(d, name)].opts == NewRecordOpts(d, d.env.resolveName(name).1)
    ensures var rn, r := Resolved(d, name), MountTimes(d, reg, h, name, k, o);
      && r.0 == reg[rn := reg[rn].(count := reg[rn].count + k)]
      && r.1 == h.(trace := h.trace + Repeat(Grep(HostDir(d, name)), k))
  {
    var rn := Resolved(d, name);
    LiveMounts(d, reg, h, name, k, o);
    SettledOptsKept(d, reg, h, name, k, o);
    var r := MountTimes(d, reg, h, name, k, o).0;
    var rec := reg[rn].(count := reg[rn].count + k);
    assert r[rn] == rec;
    Reassemble(reg, r, rn, rec);
  }

  /** Mounts of a live volume whose record already holds the defaults over its inline options keep those options. */
  lemma {:induction false} SettledOptsKept(d: Driver, reg: Mounts, h: HostState, name: string, k: nat, o: Outcomes)
    requires Resolved(d, name) in reg && HostDir(d, name) in h.mounted
    requires reg[Resolved(d, name)].opts == NewRecordOpts(d, d.env.resolveName(name).1)
    ensures var r := MountTimes(d, reg, h, name, k, o).0;
      Resolved(d, name) in r && r[Resolved(d, name)].opts == reg[Resolved(d, name)].opts
    decreases k
  {
    if k > 0 {
      var out := MountStep(d, reg, name, h, o);
      SettledLiveMount(d, reg, h, name, o);
      SettledOptsKept(d, out.reg, out.host, name, k - 1, o);
    }
  }

  /** One step of `SettledLiveMounts`: the source choice writes nothing and the live mountpoint is reused. */
  lemma SettledLiveMount(d: Driver, reg: Mounts, h: HostState, name: string, o: Outcomes)
    requires Resolved(d, name) in reg && HostDir(d, name) in h.mounted
    requires reg[Resolved(d, name)].opts == NewRecordOpts(d, d.env.resolveName(name).1)
    ensures var rn, out := Resolved(d, name), MountStep(d, reg, name, h, o);
      && out.reg == reg[rn := reg[rn].(count := reg[rn].count + 1)]
      && out.host == h.(trace := h.trace + [Grep(HostDir(d, name))])
  {
    var resOpts := d.env.resolveName(name).1;
    DefaultsSettle(d, reg, Resolved(d, name), OptsOrEmpty(resOpts), resOpts);
    LiveMountReuses(d, reg, name, h, o);
  }

  /**
   * The mount path for a name with no record, with any inline options and the
   * host operations succeeding: the new record holds the inline options with
   * the defaults on top and one user; the sub-directory is created and
   * returned exactly when those options make the volume managed.
   */
  lemma FreshNewMount(d: Driver, reg: Mounts, rn: string, resOpts: Option<Options>, hostdir: string, source: string,
                      h: HostState, o: Outcomes)
    requires rn !in reg && o.mkdir && o.mount && o.subdir
    ensures var out := FreshMount(d, reg, rn, resOpts, hostdir, source, h, o);
      var opts, datavol := NewRecordOpts(d, resOpts), d.env.join(hostdir, rn);
      && out.result == Ok(if ManagedOpts(d, opts) then datavol else hostdir)
      && out.reg == reg[rn := Record(hostdir, opts, 1)]
      && out.host == HostState(h.mounted + {hostdir},
                               h.dirs + {hostdir} + (if ManagedOpts(d, opts) then {datavol} else {}), h.nonEmpty,
                               h.trace + [Mkdir(hostdir), Exec(MountCommand(d, opts, source, hostdir))]
                                       + (if ManagedOpts(d, opts) then [Mkdir(datavol)] else []))
  {
    var opts := NewRecordOpts(d, resOpts);
    var reg2 := Added(Created(reg, rn, hostdir, opts), rn, hostdir);
    assert reg2 == reg[rn := Record(hostdir, opts, 1)];
    ManagedOptsAt(d, reg2, rn);
    if ManagedOpts(d, opts) {
      FreshNewManagedMount(d, reg, rn, resOpts, hostdir, source, h, o);
    } else {
      FreshNewUnmanagedMount(d, reg, rn, resOpts, hostdir, source, h, o);
    }
  }

  /** `FreshNewMount` when the new record's options make the volume managed. */
  lemma FreshNewManagedMount(d: Driver, reg: Mounts, rn: string, resOpts: Option<Options>, hostdir: string, source: string,
                             h: HostState, o: Outcomes)
    requires rn !in reg && o.mkdir && o.mount && o.subdir
    requires ManagedAt(reg[rn := Record(hostdir, NewRecordOpts(d, resOpts), 1)], d.mountm.truthy, rn)
    ensures var out := FreshMount(d, reg, rn, resOpts, hostdir, source, h, o);
      var opts, datavol := NewRecordOpts(d, resOpts), d.env.join(hostdir, rn);
      && out.result == Ok(datavol)
      && out.reg == reg[rn := Record(hostdir, opts, 1)]
      && out.host == HostState(h.mounted + {hostdir}, h.dirs + {hostdir} + {datavol}, h.nonEmpty,
                               h.trace + [Mkdir(hostdir), Exec(MountCommand(d, opts, source, hostdir))] + [Mkdir(datavol)])
  {
    var opts := NewRecordOpts(d, resOpts);
    assert Added(Created(reg, rn, hostdir, opts), rn, hostdir) == reg[rn := Record(hostdir, opts, 1)];
  }

  /** `FreshNewMount` when the new record's options leave the volume unmanaged. */
  lemma FreshNewUnmanagedMount(d: Driver, reg: Mounts, rn: string, resOpts: Option<Options>, hostdir: string, source: string,
                               h: HostState, o: Outcomes)
    requires rn !in reg && o.mkdir && o.mount
    requires !ManagedAt(reg[rn := Record(hostdir, NewRecordOpts(d, resOpts), 1)], d.mountm.truthy, rn)
    ensures var out := FreshMount(d, reg, rn, resOpts, hostdir, source, h, o);
      var opts := NewRecordOpts(d, resOpts);
      && out.result == Ok(hostdir)
      && out.reg == reg[rn := Record(hostdir, opts, 1)]
      && out.host == HostState(h.mounted + {hostdir}, h.dirs + {hostdir}, h.nonEmpty,
                               h.trace + [Mkdir(hostdir), Exec(MountCommand(d, opts, source, hostdir))])
  {
    var opts := NewRecordOpts(d, resOpts);
    assert Added(Created(reg, rn, hostdir, opts), rn, hostdir) == reg[rn := Record(hostdir, opts, 1)];
  }

  /** The first mount of a volume with no record, with any inline options: `FreshNewMount` reached through `Mount`. */
  lemma FirstMountOfNewVolume(d: Driver, reg: Mounts, h: HostState, name: string, o: Outcomes)
    requires Resolved(d, name) !in reg && o.mkdir && o.mount && o.subdir
    ensures var out := MountStep(d, reg, name, h, o);
      var rn, hostdir := Resolved(d, name), HostDir(d, name);
      var opts, datavol := NewRecordOpts(d, d.env.resolveName(name).1), d.env.join(hostdir, rn);
      && out.result == Ok(if ManagedOpts(d, opts) then datavol else hostdir)
      && out.reg == reg[rn := Record(hostdir, opts, 1)]
      && out.host == HostState(h.mounted + {hostdir},
                               h.dirs + {hostdir} + (if ManagedOpts(d, opts) then {datavol} else {}), h.nonEmpty,
                               h.trace + [Mkdir(hostdir), Exec(MountPathCommand(d, reg, name))]
                                       + (if ManagedOpts(d, opts) then [Mkdir(datavol)] else []))
  {
    var rn, resOpts := Resolved(d, name), d.env.resolveName(name).1;
    var sel := SelectSource(d, reg, rn, resOpts);
    assert sel.0 == reg;
    FreshNewMount(d, reg, rn, resOpts, HostDir(d, name), sel.1, h, o);
  }

  /**
   * N mounts of a new volume with any inline options: a record with those
   * options, the defaults on top and N users; one directory creation, one
   * mount command and, for a managed volume, one sub-directory creation, then
   * N - 1 lookups.
   */
  lemma NewVolumeMounts(d: Driver, reg: Mounts, h: HostState, name: string, n: nat, o: Outcomes)
    requires n >= 1
    requires Resolved(d, name) !in reg && o.mkdir && o.mount && o.subdir
    ensures var rn, hostdir := Resolved(d, name), HostDir(d, name);
      var opts, datavol := NewRecordOpts(d, d.env.resolveName(name).1), d.env.join(hostdir, rn);
      var r := MountTimes(d, reg, h, name, n, o);
      && r.0 == reg[rn := Record(hostdir, opts, n)]
      && r.1 == HostState(h.mounted + {hostdir},
                          h.dirs + {hostdir} + (if ManagedOpts(d, opts) then {datavol} else {}), h.nonEmpty,
                          h.trace + [Mkdir(hostdir), Exec(MountPathCommand(d, reg, name))]
                                  + (if ManagedOpts(d, opts) then [Mkdir(datavol)] else [])
                                  + Repeat(Grep(hostdir), n - 1))
  {
    var rn := Resolved(d, name);
    var first := MountStep(d, reg, name, h, o);
    FirstMountOfNewVolume(d, reg, h, name, o);
    SettledLiveMounts(d, first.reg, first.host, name, n - 1, o);
    Overwrite(reg, rn, first.reg[rn], first.reg[rn].(count := first.reg[rn].count + (n - 1)));
  }

  /**
   * N mounts then N unmounts of a new volume with any inline options, all host
   * operations succeeding: the share is mounted once and unmounted once, and
   * the mount table is as before. A managed volume keeps its record with no
   * users; any other volume leaves the registry exactly as it was.
   */
  lemma NewVolumeLifecycle(d: Driver, reg: Mounts, h: HostState, name: string, n: nat)
    requires n >= 1
    requires Resolved(d, name) !in reg
    requires HostDir(d, name) !in h.mounted && HostDir(d, name) !in h.nonEmpty
    ensures var o := Outcomes(true, true, true, true, true);
      var rn, hostdir := Resolved(d, name), HostDir(d, name);
      var opts, datavol := NewRecordOpts(d, d.env.resolveName(name).1), d.env.join(hostdir, rn);
      var r := Rounds(d, reg, h, name, n, o);
      && r.0 == (if ManagedOpts(d, opts) then reg[rn := Record(hostdir, opts, 0)] else reg)
      && r.1 == HostState(h.mounted,
                          h.dirs + {hostdir} + (if ManagedOpts(d, opts) then {datavol} else {}) - {hostdir}, h.nonEmpty,
                          h.trace + [Mkdir(hostdir), Exec(MountPathCommand(d, reg, name))]
                                  + (if ManagedOpts(d, opts) then [Mkdir(datavol)] else [])
                                  + Repeat(Grep(hostdir), n - 1)
                                  + [Umount(hostdir), List(hostdir), Remove(hostdir)])
  {
    var o := Outcomes(true, true, true, true, true);
    var rn, hostdir := Resolved(d, name), HostDir(d, name);
    var opts, datavol := NewRecordOpts(d, d.env.resolveName(name).1), d.env.join(hostdir, rn);
    var dirs := h.dirs + {hostdir} + (if ManagedOpts(d, opts) then {datavol} else {});
    var live := reg[rn := Record(hostdir, opts, n)];
    var liveHost := HostState(h.mounted + {hostdir}, dirs, h.nonEmpty,
                              h.trace + [Mkdir(hostdir), Exec(MountPathCommand(d, reg, name))]
                                      + (if ManagedOpts(d, opts) then [Mkdir(datavol)] else [])
                                      + Repeat(Grep(hostdir), n - 1));
    NewVolumeMounts(d, reg, h, name, n, o);
    NewVolumeUnmounts(d, reg, live, liveHost, name, n, hostdir, opts, o);
    MountedOnce(h, liveHost, UnmountTimes(d, live, liveHost, name, n, o).1, hostdir, dirs,
                liveHost.trace, [Umount(hostdir), List(hostdir), Remove(hostdir)]);
  }

  /** A record is managed exactly when its options are. */
  lemma ManagedOptsAt(d: Driver, reg: Mounts, rn: string)
    requires rn in reg
    ensures ManagedAt(reg, d.mountm.truthy, rn) <==> ManagedOpts(d, reg[rn].opts)
  {
  }

  /**
   * N unmounts of a volume that had no record before its N mounts: a managed
   * volume keeps its record with no users, any other volume is purged, and
   * the host sees one unmount.
   */
  lemma NewVolumeUnmounts(d: Driver, reg: Mounts, live: Mounts, h: HostState, name: string, n: nat,
                          hostdir: string, opts: Options, o: Outcomes)
    requires n >= 1 && Resolved(d, name) !in reg
    requires live == reg[Resolved(d, name) := Record(hostdir, opts, n)]
    requires HostDir(d, name) !in h.nonEmpty && o.umount && o.remove
    ensures var rn, r := Resolved(d, name), UnmountTimes(d, live, h, name, n, o);
      && r.0 == (if ManagedOpts(d, opts) then reg[rn := Record(hostdir, opts, 0)] else reg)
      && r.1 == HostState(h.mounted - {HostDir(d, name)}, h.dirs - {HostDir(d, name)}, h.nonEmpty,
                          h.trace + [Umount(HostDir(d, name)), List(HostDir(d, name)), Remove(HostDir(d, name))])
  {
    var rn := Resolved(d, name);
    ManagedOptsAt(d, live, rn);
    if ManagedOpts(d, opts) {
      ManagedUnmounts(d, live, h, name, n, o);
      Overwrite(reg, rn, live[rn], Record(hostdir, opts, 0));
    } else {
      UnmanagedUnmounts(d, live, h, name, n, o);
      assert live - {rn} == reg;
    }
  }

  /**
   * The live path returns the mountpoint itself, whatever the record: a
   * second mount of a new managed volume returns the mountpoint, where the
   * first returned its sub-directory.
   */
  lemma SecondMountOfManagedVolume(d: Driver, reg: Mounts, h: HostState, name: string, o: Outcomes)
    requires Resolved(d, name) !in reg && o.mkdir && o.mount && o.subdir
    requires ManagedOpts(d, NewRecordOpts(d, d.env.resolveName(name).1))
    ensures var first := MountStep(d, reg, name, h, o);
      var second := MountStep(d, first.reg, name, first.host, o);
      && first.result == Ok(d.env.join(HostDir(d, name), Resolved(d, name)))
      && second.result == Ok(HostDir(d, name))
  {
    var first := MountStep(d, reg, name, h, o);
    FirstMountOfNewVolume(d, reg, h, name, o);
    LiveMountReuses(d, first.reg, name, first.host, o);
  }
}

=== FILE: nfs.dfy ===
/**
 * The NFS volume driver's mount lifecycle: it resolves a volume name to a
 * share and a host mountpoint, counts the containers using each mount in the
 * registry, and issues mount, unmount and directory operations on the host.
 *
 * Each of `Mount` and `Unmount` runs entirely under the driver's lock and is
 * modelled as one atomic method. What one call does is also written as a
 * function of the old state (`MountStep`, `UnmountStep`); the methods are
 * proved to agree with those functions, and the properties of the driver are
 * proved about the functions.
 */
module Nfs {
  import opened Registry
  import opened Host

  /** Key of the free-form mount option string in an option map. */
  const NfsOptions := "nfsopts"
  /** Options used for NFSv3 when no option string is configured. */
  const DefaultNfsV3 := "port=2049,nolock,proto=tcp"

  datatype Option<T> = None | Some(value: T)

  /** Which step of a call failed. */
  datatype Error =
    | NilRecord(name: string)
    | MkdirFailed(path: string)
    | MountFailed(cmd: string)
    | SubdirFailed(path: string)
    | UmountFailed(path: string)
    | RemoveFailed(path: string)

  datatype Result<T> = Ok(value: T) | Err(error: Error)

  type Options = map<string, string>

  /**
   * Helpers of the drivers package whose bodies are not part of this model,
   * taken as arbitrary functions: name resolution into a canonical name and
   * inline options, the mountpoint of a name under the root, separator
   * normalisation of a share, merging of two option maps, path joining, and
   * whether the log level is debug.
   */
  datatype Env = Env(
    resolveName: string -> (string, Option<Options>),
    mountpoint: (string, string) -> string,
    addShareColon: string -> string,
    merge: (Options, Options) -> Options,
    join: (string, string) -> string,
    debug: bool)

  /** The driver value: immutable configuration plus the shared registry. */
  datatype Driver = Driver(
    root: string,
    version: int,
    nfsopts: Options,
    share: string,
    create: string,
    mountm: MountManager,
    env: Env)

  /** `NewNFSDriver`: the option map holds the option string only when one was given. */
  function NewNFSDriver(root: string, version: int, nfsopts: string, share: string, create: string,
                        mounts: MountManager, env: Env): (d: Driver)
    ensures d.nfsopts.Keys <= {NfsOptions}
    ensures NfsOptions in d.nfsopts <==> |nfsopts| > 0
    ensures NfsOptions in d.nfsopts ==> d.nfsopts[NfsOptions] == nfsopts
    ensures d.root == root && d.version == version && d.share == share && d.create == create
    ensures d.mountm == mounts
  {
    var opts := if |nfsopts| > 0 then map[NfsOptions := nfsopts] else map[];
    Driver(root, version, opts, share, create, mounts, env)
  }

  function Resolved(d: Driver, name: string): string
  {
    d.env.resolveName(name).0
  }

  function HostDir(d: Driver, name: string): string
  {
    d.env.mountpoint(d.root, Resolved(d, name))
  }

  /** The `share` entry of the inline options, if any. */
  function InlineShare(resOpts: Option<Options>): Option<string>
  {
    if resOpts.Some? && ShareOpt in resOpts.value then Some(resOpts.value[ShareOpt]) else None
  }

  function OptsOrEmpty(resOpts: Option<Options>): Options
  {
    if resOpts.Some? then resOpts.value else map[]
  }

  /** The driver's default share and create values, each only when configured. */
  function DefaultOpts(d: Driver): (opts: Options)
    ensures opts.Keys <= {ShareOpt, CreateOpt}
    ensures ShareOpt in opts <==> d.share != ""
    ensures CreateOpt in opts <==> d.create != ""
    ensures ShareOpt in opts ==> opts[ShareOpt] == d.share
    ensures CreateOpt in opts ==> opts[CreateOpt] == d.create
  {
    (if d.share != "" then map[ShareOpt := d.share] else map[])
      + (if d.create != "" then map[CreateOpt := d.create] else map[])
  }

  /**
   * Options of the record a first mount creates: the inline options, with the
   * driver defaults the source choice decided to write on top of them.
   */
  function NewRecordOpts(d: Driver, resOpts: Option<Options>): Options
  {
    OptsOrEmpty(resOpts) + DefaultOpts(d)
  }

  /**
   * The new record's options hold every inline key and every default key; a
   * configured default replaces the inline value, any other inline value is
   * kept.
   */
  lemma NewRecordOptsLayered(d: Driver, resOpts: Option<Options>)
    ensures var opts := NewRecordOpts(d, resOpts);
      && opts.Keys == OptsOrEmpty(resOpts).Keys + DefaultOpts(d).Keys
      && (forall k :: k in DefaultOpts(d) ==> opts[k] == DefaultOpts(d)[k])
      && (forall k :: k in OptsOrEmpty(resOpts) && k !in DefaultOpts(d) ==> opts[k] == OptsOrEmpty(resOpts)[k])
  {
  }

  /**
   * `fixSource`: the normalised share stored for the record named `name`, or
   * `name` itself normalised when that record stores none. A share key that is
   * present but empty is used as it is.
   */
  function FixSource(reg: Mounts, env: Env, name: string): (src: string)
    ensures HasOptionOf(reg, name, ShareOpt) ==> src == env.addShareColon(reg[name].opts[ShareOpt])
    ensures !HasOptionOf(reg, name, ShareOpt) ==> src == env.addShareColon(name)
  {
    if HasOptionOf(reg, name, ShareOpt) then env.addShareColon(OptionOf(reg, name, ShareOpt))
    else env.addShareColon(name)
  }

  /**
   * Choice of the mount source, with the driver defaults written into the
   * record of `rn` when it has neither a share nor the create flag. An inline
   * `share` option decides the source whatever is stored or configured.
   *
   * For a name without a record there is nothing to write into yet (see
   * `SelectSourceAsWritten` for what the code does there): the registry is
   * left as it is and the defaults go into the record that the mount path
   * creates (`NewRecordOpts`, used by `FreshMount`).
   */
  function SelectSource(d: Driver, reg: Mounts, rn: string, resOpts: Option<Options>): (sel: (Mounts, string))
    ensures sel.0.Keys == reg.Keys
    ensures forall k :: k in reg ==> sel.0[k].count == reg[k].count && sel.0[k].hostdir == reg[k].hostdir
    ensures forall k :: k in reg && k != rn ==> sel.0[k] == reg[k]
    ensures InlineShare(resOpts).Some? ==> sel.1 == FixSource(sel.0, d.env, InlineShare(resOpts).value)
  {
    var (reg', source) :=
      if OptionOf(reg, rn, ShareOpt) == "" && !OptionAsBoolOf(reg, d.mountm.truthy, rn, CreateOpt) then
        if rn in reg then
          var reg1 := if d.share != "" then WithOption(reg, rn, ShareOpt, d.share) else reg;
          var src := if d.share != "" then FixSource(reg1, d.env, d.share) else "";
          var reg2 := if d.create != "" then WithOption(reg1, rn, CreateOpt, d.create) else reg1;
          (reg2, src)
        else
          (reg, if d.share != "" then FixSource(reg, d.env, d.share) else "")
      else
        (reg, FixSource(reg, d.env, rn));
    match InlineShare(resOpts)
    case Some(s) => (reg', FixSource(reg', d.env, s))
    case None => (reg', source)
  }

  /**
   * The source choice exactly as the code performs it: it writes into
   * `mounts[rn]` before knowing that a record exists, so a name without one
   * dereferences a missing entry and the call aborts (`NilRecord`).
   */
  function SelectSourceAsWritten(d: Driver, reg: Mounts, rn: string, resOpts: Option<Options>): (r: Result<(Mounts, string)>)
    ensures r.Err? ==> rn !in reg
  {
    if OptionOf(reg, rn, ShareOpt) == "" && !OptionAsBoolOf(reg, d.mountm.truthy, rn, CreateOpt) then
      if rn !in reg then Err(NilRecord(rn))
      else
        var reg1 := if d.share != "" then WithOption(reg, rn, ShareOpt, d.share) else reg;
        var src := if d.share != "" then FixSource(reg1, d.env, d.share) else "";
        var reg2 := if d.create != "" then WithOption(reg1, rn, CreateOpt, d.create) else reg1;
        Ok(if InlineShare(resOpts).Some? then (reg2, FixSource(reg2, d.env, InlineShare(resOpts).value)) else (reg2, src))
    else
      var src := FixSource(reg, d.env, rn);
      Ok(if InlineShare(resOpts).Some? then (reg, FixSource(reg, d.env, InlineShare(resOpts).value)) else (reg, src))
  }

  /** The parts of a mount command line. */
  datatype MountInvocation = MountInvocation(
    verbose: bool, fstype: string, options: Option<string>, source: string, dest: string)

  /** The option string found under `NfsOptions`, or "" when there is none. */
  function OptionString(options: Options): (s: string)
    ensures NfsOptions in options ==> s == options[NfsOptions]
    ensures NfsOptions !in options ==> s == ""
  {
    if NfsOptions in options then options[NfsOptions] else ""
  }

  /**
   * The mount command for `version`: NFSv3 always passes options, the
   * default set when none are configured; any other version is mounted as
   * nfs4 and passes `-o` only when options are configured.
   */
  function PlanMount(version: int, opts: string, source: string, dest: string, verbose: bool): (inv: MountInvocation)
    ensures inv.fstype == if version == 3 then "nfs" else "nfs4"
    ensures |opts| > 0 ==> inv.options == Some(opts)
    ensures |opts| == 0 && version == 3 ==> inv.options == Some(DefaultNfsV3)
    ensures |opts| == 0 && version != 3 ==> inv.options == None
    ensures inv.source == source && inv.dest == dest && inv.verbose == verbose
  {
    if version == 3 then
      MountInvocation(verbose, "nfs", Some(if |opts| < 1 then DefaultNfsV3 else opts), source, dest)
    else
      MountInvocation(verbose, "nfs4", if |opts| > 0 then Some(opts) else None, source, dest)
  }

  /** The command line as handed to the shell. */
  function CommandLine(inv: MountInvocation): (cmd: string)
    ensures |cmd| >= 5 && cmd[..5] == "mount"
  {
    var prog := if inv.verbose then "mount -v" else "mount";
    match inv.options
    case Some(o) => prog + " -t " + inv.fstype + " -o " + o + " " + inv.source + " " + inv.dest
    case None => prog + " -t " + inv.fstype + " " + inv.source + " " + inv.dest
  }

  /**
   * `mountVolume`'s command: the record's options merged with the driver's give
   * the option string, which decides between the three command forms.
   */
  function MountCommand(d: Driver, recordOpts: Options, source: string, dest: string): string
  {
    var opts := OptionString(d.env.merge(recordOpts, d.nfsopts));
    CommandLine(PlanMount(d.version, opts, source, dest, d.env.debug))
  }

  /**
   * The three forms of the mount command: NFSv3 with the configured option
   * string or, failing one, the default set; any other version as nfs4 with
   * `-o` only when an option string is configured.
   */
  lemma MountCommandForms(d: Driver, recordOpts: Options, source: string, dest: string)
    ensures var cmd := MountCommand(d, recordOpts, source, dest);
      var opts := OptionString(d.env.merge(recordOpts, d.nfsopts));
      var prog := if d.env.debug then "mount -v" else "mount";
      && (d.version == 3 && opts == "" ==> cmd == prog + " -t " + "nfs" + " -o " + DefaultNfsV3 + " " + source + " " + dest)
      && (d.version == 3 && opts != "" ==> cmd == prog + " -t " + "nfs" + " -o " + opts + " " + source + " " + dest)
      && (d.version != 3 && opts != "" ==> cmd == prog + " -t " + "nfs4" + " -o " + opts + " " + source + " " + dest)
      && (d.version != 3 && opts == "" ==> cmd == prog + " -t " + "nfs4" + " " + source + " " + dest)
  {
  }

  /** Registry, host and reply after one call. */
  datatype Step<T> = Step(reg: Mounts, host: HostState, result: Result<T>)

  /** Registry entries other than `rn` are untouched. */
  ghost predicate OthersUnchanged(reg: Mounts, reg': Mounts, rn: string)
  {
    forall k :: k != rn ==> (k in reg' <==> k in reg) && (k in reg ==> reg'[k] == reg[k])
  }

  /** The host trace of `h'` continues that of `h`: operations are only appended. */
  ghost predicate Extends(h: HostState, h': HostState)
  {
    |h.trace| <= |h'.trace| && h'.trace[..|h.trace|] == h.trace
  }

  /**
   * The mount path proper (directory, record, mount command, optional
   * sub-directory), entered with the registry as left by the source choice and
   * the liveness check.
   */
  function FreshMount(d: Driver, reg: Mounts, rn: string, resOpts: Option<Options>, hostdir: string,
                      source: string, h: HostState, o: Outcomes): (out: Step<string>)
    ensures OthersUnchanged(reg, out.reg, rn)
    ensures out.result.Ok? ==> rn in out.reg && CountOf(out.reg, rn) == CountOf(reg, rn) + 1
    ensures out.result.Err? ==> CountOf(out.reg, rn) == if CountOf(reg, rn) > 0 && !o.mkdir then CountOf(reg, rn) - 1 else CountOf(reg, rn)
    ensures rn in reg ==> rn in out.reg
    ensures Extends(h, out.host)
  {
    var h1 := CreateDest(h, hostdir, o.mkdir);
    if !o.mkdir then
      Step(if CountOf(reg, rn) > 0 then Decremented(reg, rn) else reg, h1, Err(MkdirFailed(hostdir)))
    else
      var reg1 := if rn !in reg then Created(reg, rn, hostdir, NewRecordOpts(d, resOpts)) else reg;
      var reg2 := Added(reg1, rn, hostdir);
      var cmd := MountCommand(d, OptionsOf(reg2, rn), source, hostdir);
      var h2 := RunMount(h1, cmd, hostdir, o.mount);
      if !o.mount then
        Step(Decremented(reg2, rn), h2, Err(MountFailed(cmd)))
      else if ManagedAt(reg2, d.mountm.truthy, rn) then
        var datavol := d.env.join(hostdir, rn);
        var h3 := CreateDest(h2, datavol, o.subdir);
        if !o.subdir then Step(Decremented(reg2, rn), h3, Err(SubdirFailed(datavol)))
        else Step(reg2, h3, Ok(datavol))
      else
        Step(reg2, h2, Ok(hostdir))
  }

  /**
   * One `Mount` call. A success adds exactly one user; a failure adds none.
   * Only the entry of the resolved name changes, and host operations are only
   * appended to the trace.
   */
  function MountStep(d: Driver, reg: Mounts, name: string, h: HostState, o: Outcomes): (out: Step<string>)
    ensures OthersUnchanged(reg, out.reg, Resolved(d, name))
    ensures out.result.Ok? ==> CountOf(out.reg, Resolved(d, name)) == CountOf(reg, Resolved(d, name)) + 1
    ensures out.result.Err? ==> CountOf(out.reg, Resolved(d, name)) <= CountOf(reg, Resolved(d, name))
    ensures Extends(h, out.host)
  {
    var (rn, resOpts) := d.env.resolveName(name);
    var hostdir := d.env.mountpoint(d.root, rn);
    var (reg1, source) := SelectSource(d, reg, rn, resOpts);
    if rn in reg1 then
      var reg2 := Incremented(reg1, rn);
      var (h1, live) := IsMounted(h, hostdir);
      if live then Step(reg2, h1, Ok(hostdir))
      else
        var reg3 := if CountOf(reg2, rn) > 0 then Decremented(reg2, rn) else reg2;
        FreshMount(d, reg3, rn, resOpts, hostdir, source, h1, o)
    else
      FreshMount(d, reg1, rn, resOpts, hostdir, source, h, o)
  }

  /**
   * One `Unmount` call. The count drops by one (floored at zero) in every
   * case; the host is only touched when at most one user was left.
   */
  function UnmountStep(d: Driver, reg: Mounts, name: string, h: HostState, o: Outcomes): (out: Step<()>)
    ensures OthersUnchanged(reg, out.reg, Resolved(d, name))
    ensures CountOf(out.reg, Resolved(d, name)) == if CountOf(reg, Resolved(d, name)) > 0 then CountOf(reg, Resolved(d, name)) - 1 else 0
    ensures out.host.trace == h.trace <==> Resolved(d, name) in reg && CountOf(reg, Resolved(d, name)) > 1
    ensures Extends(h, out.host)
  {
    var rn := Resolved(d, name);
    var hostdir := d.env.mountpoint(d.root, rn);
    if rn in reg && CountOf(reg, rn) > 1 then
      Step(Decremented(reg, rn), h, Ok(()))
    else
      var reg1 := if rn in reg then Decremented(reg, rn) else reg;
      var h1 := RunUmount(h, hostdir, o.umount);
      if !o.umount then Step(reg1, h1, Err(UmountFailed(hostdir)))
      else
        var reg2 := WithoutUnmanaged(reg1, d.mountm.truthy, rn);
        var (h2, nonEmpty) := HasEntries(h1, hostdir);
        if nonEmpty then Step(reg2, h2, Ok(()))
        else
          var h3 := RemoveAll(h2, hostdir, o.remove);
          if !o.remove then Step(reg2, h3, Err(RemoveFailed(hostdir)))
          else Step(reg2, h3, Ok(()))
  }

  /**
   * `Mount`: returns the host path to hand to the container, updating the
   * registry in place and issuing host operations step by step.
   */
  method Mount(d: Driver, name: string, h: HostState, o: Outcomes) returns (r: Result<string>, h': HostState)
    modifies d.mountm
    ensures Step(d.mountm.mounts, h', r) == MountStep(d, old(d.mountm.mounts), name, h, o)
  {
    var m := d.mountm;
    var (resolvedName, resOpts) := d.env.resolveName(name);
    var hostdir := d.env.mountpoint(d.root, resolvedName);
    var source := ChooseSource(d, resolvedName, resOpts);

    h' := h;
    if m.HasMount(resolvedName) {
      m.Increment(resolvedName);
      var (h1, live) := IsMounted(h', hostdir);
      h' := h1;
      if live {
        return Ok(hostdir), h';
      }
      // stale: undo the optimistic increment and mount again
      if m.Count(resolvedName) > 0 {
        m.Decrement(resolvedName);
      }
    }
    r, h' := MountOnHost(d, resolvedName, resOpts, hostdir, source, h', o);
  }

  /** The source choice of `Mount`, with its in-place writes of driver defaults. */
  method ChooseSource(d: Driver, resolvedName: string, resOpts: Option<Options>) returns (source: string)
    modifies d.mountm
    ensures (d.mountm.mounts, source) == SelectSource(d, old(d.mountm.mounts), resolvedName, resOpts)
  {
    var m := d.mountm;
    source := "";
    if m.GetOption(resolvedName, ShareOpt) == "" && !m.GetOptionAsBool(resolvedName, CreateOpt) {
      if m.HasMount(resolvedName) {
        if d.share != "" {
          m.SetOption(resolvedName, ShareOpt, d.share);
          source := FixSource(m.mounts, d.env, d.share);
        }
        if d.create != "" {
          m.SetOption(resolvedName, CreateOpt, d.create);
        }
      } else if d.share != "" {
        source := FixSource(m.mounts, d.env, d.share);
      }
    } else {
      source := FixSource(m.mounts, d.env, resolvedName);
    }

    // ad-hoc mounts: an inline share option decides the source
    if resOpts.Some? && ShareOpt in resOpts.value {
      source := FixSource(m.mounts, d.env, resOpts.value[ShareOpt]);
    }
  }

  /** The mount path proper of `Mount`: directory, record, mount command, sub-directory. */
  method MountOnHost(d: Driver, resolvedName: string, resOpts: Option<Options>, hostdir: string,
                     source: string, h: HostState, o: Outcomes) returns (r: Result<string>, h': HostState)
    modifies d.mountm
    ensures Step(d.mountm.mounts, h', r) == FreshMount(d, old(d.mountm.mounts), resolvedName, resOpts, hostdir, source, h, o)
  {
    var m := d.mountm;
    h' := CreateDest(h, hostdir, o.mkdir);
    if !o.mkdir {
      if m.Count(resolvedName) > 0 {
        m.Decrement(resolvedName);
      }
      return Err(MkdirFailed(hostdir)), h';
    }

    if !m.HasMount(resolvedName) {
      m.Create(resolvedName, hostdir, NewRecordOpts(d, resOpts));
    }
    m.Add(resolvedName, hostdir);

    var cmd := MountCommand(d, m.GetOptions(resolvedName), source, hostdir);
    h' := RunMount(h', cmd, hostdir, o.mount);
    if !o.mount {
      m.Decrement(resolvedName);
      return Err(MountFailed(cmd)), h';
    }

    var path := hostdir;
    if m.GetOption(resolvedName, ShareOpt) != "" && m.GetOptionAsBool(resolvedName, CreateOpt) {
      var datavol := d.env.join(hostdir, resolvedName);
      h' := CreateDest(h', datavol, o.subdir);
      if !o.subdir {
        m.Decrement(resolvedName);
        return Err(SubdirFailed(datavol)), h';
      }
      path := datavol;
    }
    return Ok(path), h';
  }

  /** `Unmount`: releases one user and tears the mount down when none is left. */
  method Unmount(d: Driver, name: string, h: HostState, o: Outcomes) returns (r: Result<()>, h': HostState)
    modifies d.mountm
    ensures Step(d.mountm.mounts, h', r) == UnmountStep(d, old(d.mountm.mounts), name, h, o)
  {
    var m := d.mountm;
    var (resolvedName, _) := d.env.resolveName(name);
    var hostdir := d.env.mountpoint(d.root, resolvedName);
    h' := h;

    if m.HasMount(resolvedName) {
      if m.Count(resolvedName) > 1 {
        // in use by other containers
        m.Decrement(resolvedName);
        return Ok(()), h';
      }
      m.Decrement(resolvedName);
    }

    h' := RunUmount(h', hostdir, o.umount);
    if !o.umount {
      return Err(UmountFailed(hostdir)), h';
    }

    m.DeleteIfNotManaged(resolvedName);

    var (h1, nonEmpty) := HasEntries(h', hostdir);
    h' := h1;
    if nonEmpty {
      // directory not empty after unmount: leave it in place
      return Ok(()), h';
    }
    h' := RemoveAll(h', hostdir, o.remove);
    if !o.remove {
      return Err(RemoveFailed(hostdir)), h';
    }
    return Ok(()), h';
  }
}

=== FILE: registry.dfy ===
/**
 * The mount registry (`MountManager` of the drivers package): a table from a
 * canonical volume name to that volume's mount state. The NFS driver reads and
 * updates it only while holding its lock, so every operation here is one
 * atomic step.
 *
 * The registry's own source file is not part of this model; its operations are
 * given the contracts the NFS driver relies on. They are written once as
 * functions on the table value (`Incremented`, `Decremented`, ...) and the
 * class `MountManager` applies them in place.
 */
module Registry {

  /** Option key naming the remote share of a volume (declared elsewhere in the drivers package). */
  const ShareOpt := "share"
  /** Option key of the "create a sub-directory per volume" flag (declared elsewhere in the drivers package). */
  const CreateOpt := "create"

  /** Mount state of one canonical name: host mountpoint, option overrides, active users. */
  datatype Record = Record(hostdir: string, opts: map<string, string>, count: nat)

  type Mounts = map<string, Record>

  /** The reference count of `name`; 0 when the name has no record. */
  function CountOf(m: Mounts, name: string): nat
  {
    if name in m then m[name].count else 0
  }

  predicate HasOptionOf(m: Mounts, name: string, key: string)
  {
    name in m && key in m[name].opts
  }

  /** The stored option value, or "" when the record or the key is missing. */
  function OptionOf(m: Mounts, name: string, key: string): string
  {
    if HasOptionOf(m, name, key) then m[name].opts[key] else ""
  }

  /** An absent option reads as false; a present one as `truthy` says. */
  predicate OptionAsBoolOf(m: Mounts, truthy: string -> bool, name: string, key: string)
  {
    HasOptionOf(m, name, key) && truthy(m[name].opts[key])
  }

  /** The record's whole option map, never missing: empty when there is no record. */
  function OptionsOf(m: Mounts, name: string): map<string, string>
  {
    if name in m then m[name].opts else map[]
  }

  /**
   * A volume set up with both a share and the create flag: it survives a drop to
   * zero users, and its mounts are handed out as a per-volume sub-directory.
   */
  predicate ManagedAt(m: Mounts, truthy: string -> bool, name: string)
  {
    OptionOf(m, name, ShareOpt) != "" && OptionAsBoolOf(m, truthy, name, CreateOpt)
  }

  /** `Increment`: one more user of an existing record; an unknown name is ignored. */
  function Incremented(m: Mounts, name: string): (r: Mounts)
    ensures r.Keys == m.Keys
    ensures CountOf(r, name) == if name in m then CountOf(m, name) + 1 else 0
    ensures name in m ==> r[name].hostdir == m[name].hostdir && r[name].opts == m[name].opts
    ensures forall k :: k in m && k != name ==> r[k] == m[k]
  {
    if name in m then m[name := m[name].(count := m[name].count + 1)] else m
  }

  /** `Decrement`: one user fewer, floored at zero; an unknown name is ignored. */
  function Decremented(m: Mounts, name: string): (r: Mounts)
    ensures r.Keys == m.Keys
    ensures CountOf(r, name) == if CountOf(m, name) > 0 then CountOf(m, name) - 1 else 0
    ensures name in m ==> r[name].hostdir == m[name].hostdir && r[name].opts == m[name].opts
    ensures forall k :: k in m && k != name ==> r[k] == m[k]
  {
    if name in m && m[name].count > 0 then m[name := m[name].(count := m[name].count - 1)] else m
  }

  /**
   * `Add`: register one more user at `hostdir`. An existing record is incremented
   * and its mountpoint set to `hostdir`; a missing one is inserted with one user
   * and no options.
   */
  function Added(m: Mounts, name: string, hostdir: string): (r: Mounts)
    ensures r.Keys == m.Keys + {name}
    ensures CountOf(r, name) == CountOf(m, name) + 1
    ensures r[name].hostdir == hostdir
    ensures r[name].opts == OptionsOf(m, name)
    ensures forall k :: k in m && k != name ==> r[k] == m[k]
  {
    if name in m then m[name := m[name].(hostdir := hostdir, count := m[name].count + 1)]
    else m[name := Record(hostdir, map[], 1)]
  }

  /** `Create`: a new record with no users; a name that already has one is left as it is. */
  function Created(m: Mounts, name: string, hostdir: string, opts: map<string, string>): (r: Mounts)
    ensures r.Keys == m.Keys + {name}
    ensures name in m ==> r == m
    ensures name !in m ==> CountOf(r, name) == 0 && r[name].hostdir == hostdir && r[name].opts == opts
    ensures forall k :: k in m && k != name ==> r[k] == m[k]
  {
    if name in m then m else m[name := Record(hostdir, opts, 0)]
  }

  /** In-place write of one option of an existing record (`mounts[name].opts[key] = value`). */
  function WithOption(m: Mounts, name: string, key: string, value: string): (r: Mounts)
    requires name in m
    ensures r.Keys == m.Keys
    ensures r[name].opts == m[name].opts[key := value]
    ensures r[name].count == m[name].count && r[name].hostdir == m[name].hostdir
    ensures forall k :: k in m && k != name ==> r[k] == m[k]
  {
    m[name := m[name].(opts := m[name].opts[key := value])]
  }

  /** `DeleteIfNotManaged`: drop the record unless the volume is managed. */
  function WithoutUnmanaged(m: Mounts, truthy: string -> bool, name: string): (r: Mounts)
    ensures name in r <==> name in m && ManagedAt(m, truthy, name)
    ensures name in r ==> r[name] == m[name]
    ensures forall k :: k != name ==> (k in r <==> k in m)
    ensures forall k :: k in m && k != name ==> r[k] == m[k]
  {
    if name in m && !ManagedAt(m, truthy, name) then m - {name} else m
  }

  /** The registry object shared by all calls of one driver. */
  class MountManager {
    var mounts: Mounts
    /** How a stored option value reads as a boolean (defined outside this model). */
    const truthy: string -> bool

    constructor (truthy: string -> bool)
      ensures mounts == map[] && this.truthy == truthy
    {
      mounts := map[];
      this.truthy := truthy;
    }

    predicate HasMount(name: string)
      reads this
    {
      name in mounts
    }

    function Count(name: string): nat
      reads this
    {
      CountOf(mounts, name)
    }

    predicate HasOption(name: string, key: string)
      reads this
    {
      HasOptionOf(mounts, name, key)
    }

    function GetOption(name: string, key: string): string
      reads this
    {
      OptionOf(mounts, name, key)
    }

    predicate GetOptionAsBool(name: string, key: string)
      reads this
    {
      OptionAsBoolOf(mounts, truthy, name, key)
    }

    function GetOptions(name: string): map<string, string>
      reads this
    {
      OptionsOf(mounts, name)
    }

    method Increment(name: string)
      modifies this
      ensures mounts == Incremented(old(mounts), name)
    {
      mounts := Incremented(mounts, name);
    }

    method Decrement(name: string)
      modifies this
      ensures mounts == Decremented(old(mounts), name)
    {
      mounts := Decremented(mounts, name);
    }

    method Add(name: string, hostdir: string)
      modifies this
      ensures mounts == Added(old(mounts), name, hostdir)
    {
      mounts := Added(mounts, name, hostdir);
    }

    method Create(name: string, hostdir: string, opts: map<string, string>)
      modifies this
      ensures mounts == Created(old(mounts), name, hostdir, opts)
    {
      mounts := Created(mounts, name, hostdir, opts);
    }

    method SetOption(name: string, key: string, value: string)
      requires name in mounts
      modifies this
      ensures mounts == WithOption(old(mounts), name, key, value)
    {
      mounts := WithOption(mounts, name, key, value);
    }

    method DeleteIfNotManaged(name: string)
      modifies this
      ensures mounts == WithoutUnmanaged(old(mounts), truthy, name)
    {
      mounts := WithoutUnmanaged(mounts, truthy, name);
    }
  }
}
